=== FILE: README.md ===
# swagger-inputs-validator, modelled in Dafny

`swagger-inputs-validator` is an Express middleware that checks incoming
requests against a Swagger 2.0 document. It is built by
`new SwaggerInputValidator(swagger, options)`:

- The constructor checks its arguments.
- It compiles every path template of `paths` (`/users/{id}`) into a
  pattern whose holes match `\w+`.
- It lists the model names of `definitions`.

The validator offers two kinds of middleware:

- `all()` routes each request URL to the first declared template that
  matches it, behind the document's `basePath`, and resolves the operation
  for the request's verb.
- `get(url)`, `post(url)`, `put(url)`, `delete(url)`, `patch(url)` and
  `head(url)` resolve one operation when they are called.

Either way the request is then checked:

- Every declared parameter is checked in order:
  - a required parameter that is absent is "not specified";
  - a query, path or form value is checked by the scalar checker and
    against its `enum`;
  - a body is checked by the structural checker, which follows one `$ref`
    into `definitions` and honours `allowNull`.
- In `strict` mode, the query, path and body keys that no parameter declares
  are reported after that.
- An empty error list lets the request through. Otherwise the response gets
  status 400 and the errors go to `onError`, or to `next(errors)` when no
  handler was given.

The model follows `module.js` as written:

- JavaScript values are a datatype (`JsValues.JsValue`). Objects are
  ordered key/value lists in `Object.keys` order, so error order is that
  order.
- Every `TypeError` the code can raise is an explicit outcome, never a
  precondition: `Structural.Verdict.Throws`, `Result.Err`, and
  `Middleware.Failure.TypeErrorThrown`.
- The regular expressions of the source are hand-written matchers:
  - the template compiler and the URL matcher (`PathTemplate`), proved equal
    to a word-by-word reference (`Spells`/`MatchesFrom`);
  - the two number patterns (`Scalar`);
  - the `:name` rewrite (`Operations`).
- Four behaviours of the code are kept, although a reader may expect
  otherwise:
  - The match is case-insensitive and is not anchored at the start
    (module.js:112).
  - Every variable of a template gets capture group 1 of the bare template
    pattern, without the base path and case-sensitive (module.js:97). So
    behind the base path `/v1`, the template `/{x}` reads `x = "v1"` from
    `/v1/abc` (`PathTemplate.CaptureIgnoresBasePath`).
  - The duplicate-route error (module.js:114-115) can never be thrown. The
    first matching template is returned at once. The model has no such
    outcome.
  - A body parameter named `""` is type checked on the whole body, gated on
    `body[""]` being truthy (module.js:172-173).

The stateful parts are imperative Dafny:

- the `Middleware.Validator` class:
  - its constructor pushes routes and model names in loops;
  - the index loop of `getParsingParameters`;
  - the loop over the declared parameters and the strict key loops of
    `getErrors`;
- the property assignments of `getPathParametersFromUrl`;
- the segment walk of `getObjectFromSwaggerReference`;
- the early-return loop of `isPresentWithinTheSwagger`.

Each method is proved equal to a specification function. The properties are
proved about those functions.

Modules, in dependency order:

- `Common`: Option, Result, ordered key lists and property assignment.
- `Text`: `\w`, `toLowerCase`, `split`, `replace` and index strings.
- `JsValues`: values, truthiness, `typeof`, `===`, property reads and
  `Object.keys`.
- `Swagger`: the document and `$ref` resolution.
- `Scalar`: `simpleTypeChecking`.
- `Structural`: `complexTypeChecking` and the strict search of the body.
- `PathTemplate`: compilation, matching and capture.
- `Operations`: `getRequiredParameters`.
- `Validation`: `getErrors`.
- `Config`: the constructor's argument checks.
- `Middleware`: routing, the outcome, and the `Validator` class.

## Model

| member | source | states |
|---|---|---|
| Common.FindIndex | module.js:384 | the index found holds the key and no earlier entry does; None exactly when no entry has the key |
| Common.Find | module.js:384 | a property read finds a value exactly when some entry has the key, and that value is stored under the key |
| Common.KeysOf | module.js:42 | `Object.keys` lists every entry's key, in entry order |
| Common.PutMeaning | module.js:97 | after `obj[key] = v`, the key reads v, every other key reads as before, no key is duplicated, and the key order is kept with a new key last |
| Text.LowerChar | module.js:381 | ASCII upper-case letters map to their lower-case letter; every other character is unchanged |
| Text.UpperChar | module.js:112 | the case counterpart that the `i` flag compares with |
| Text.LowerCase | module.js:381 | `toLowerCase` keeps the length and lower-cases each character in place |
| Text.WordRun | module.js:44 | what a greedy `\w+` consumes: all word characters, and stops at a non-word character or the end |
| Text.Split | module.js:266 | `split` always gives at least one piece |
| Text.SplitPiece | module.js:266 | a piece without the separator splits into itself, and a separator starts a new piece |
| Text.RemoveFirst | module.js:265 | `replace('#', '')` removes one character when there is one, and changes nothing otherwise |
| Text.RemoveFirstAt | module.js:265 | `replace('#', '')` removes exactly the first occurrence: the text before it and the text after it are kept, in order |
| Text.NatToString | module.js:213 | an array index key is a non-empty string of digits |
| Text.NatToStringValue | module.js:213 | the key of index n reads back as n in decimal, without a leading zero |
| Text.NatToStringInjective | module.js:213 | two different indices have different keys |
| JsValues.Get | module.js:297 | on an object, a property read gives the value stored under the first entry with that key, and `undefined` when no entry has it; on any other value it gives `undefined`; the result is smaller than the object |
| JsValues.Entries | module.js:213 | `Object.keys` throws exactly on `undefined` and `null`; on an object it lists its fields |
| Swagger.Step | module.js:269 | reading a property throws exactly when the current value is `undefined` |
| Swagger.AsTarget | module.js:271 | the walk threw exactly when no node was reached, and gives `undefined` exactly on the absent node |
| Swagger.DefinitionSegments | module.js:265-266 | `#/definitions/X` is walked along the two segments `definitions` and X |
| Swagger.DefinitionReference | module.js:264-271 | a local pointer `#/definitions/X` resolves to `definitions[X]`, or to undefined when X is not defined |
| Swagger.WalkThrows | module.js:268-270 | once a property read has thrown, the whole walk throws |
| Swagger.GetObjectFromReference | module.js:264-272 | the loop over the segments returns what the reference resolves to |
| Scalar.DigitRun | module.js:332 | the run of `[0-9]` from a position is maximal |
| Scalar.Unsigned | module.js:332 | definition of the optional `[-+]?` prefix; what the whole pattern accepts is stated by `Scalar.IntegerSyntaxIff` and `Scalar.FloatSyntaxIff` |
| Scalar.FloatScan | module.js:338 | the scan with digit runs decides exactly the float body `[0-9]+(\.[0-9]+)?` or `Infinity` |
| Scalar.IntegerSyntaxIff | module.js:331-335 | `integer` accepts exactly an optional sign followed by one or more digits or by `Infinity` |
| Scalar.FloatSyntaxIff | module.js:337-342 | with format `double`/`float`, `number` accepts exactly an optional sign followed by `Infinity`, digits, or digits, a point and digits |
| Scalar.IntegerIsFloat | module.js:347-357 | every text the integer rule accepts, the float rule accepts |
| Scalar.SimpleTypeCheckByType | module.js:347-367 | `boolean` accepts only `"true"`/`"false"`; `string` accepts everything; a type outside the switch accepts nothing; `number` accepts every integer text |
| Structural.NullDecidedFirst | module.js:283-285 | a null value never throws, and passes exactly when `allowNull` is set, whatever the schema |
| Structural.RefResolvedOnce | module.js:287-289 | a `$ref` `#/definitions/X` checks the value against `definitions[X]` by its type, without following that target's own `$ref`; a missing X throws |
| Structural.CheckSchemaIgnoresRef | module.js:287-293 | once resolved, the `$ref` of the schema reached plays no part |
| Structural.PropertiesPassFrom | module.js:294-301 | the loop over the declared properties passes exactly when the accumulator is true and every visited property from there on passes |
| Structural.ObjectPassesIff | module.js:294-301 | an object passes exactly when every declared property that is required or present passes |
| Structural.UndeclaredKeysIgnored | module.js:296-299 | two objects that agree on the declared properties get the same verdict, whatever their other keys |
| Structural.ItemsPassFrom | module.js:307-310 | the loop over the elements passes exactly when the accumulator is true and every element from there on passes |
| Structural.ArrayPassesIff | module.js:303-311 | an array schema fails every non-array and passes exactly the arrays whose every element passes, so the empty array passes |
| Structural.PrimitivePassesIff | module.js:313-318 | `integer` passes exactly the numbers without a fractional part; any other type passes exactly the values whose `typeof` it names; neither throws |
| Structural.FlatEntriesFrom | module.js:213-221 | over keys whose values are not objects, the key loop reports exactly whether some key is undeclared |
| Structural.FlatObjectExtra | module.js:207-224 | for an object with no nested objects, extra values are reported exactly when some key is not a declared property of the resolved schema |
| Structural.ExtraEntriesOnceTrue | module.js:215 | once the accumulator is true, the key loop ends true whatever the remaining keys are, as the `||` skips their search |
| Structural.DeclaredFlatKeysSkipped | module.js:216-219 | declared keys whose values are not objects leave the key loop's accumulator false |
| Structural.NestedKeySearched | module.js:213-221 | a key whose value is an object or null is searched recursively against its declared property: undeclared throws, extra values found end the loop true, none found goes on, a throw propagates |
| Structural.NestedObjectExtra | module.js:207-224 | for an object whose first nested key comes after declared flat keys, the whole search throws when that key is undeclared, reports extra values when the nested search does, and throws when it throws |
| Structural.NoKeysThrows | module.js:213 | searching `undefined` or `null` for extra keys throws |
| PathTemplate.Compile | module.js:44-47 | the compiled pattern's holes are named by non-empty runs of word characters; which text becomes a hole is stated by `PathTemplate.CompileBraceHole`, `PathTemplate.CompileOtherChar` and `PathTemplate.CompileUnclosedBrace` |
| PathTemplate.CompileBraceHole | module.js:44-46 | `{name}` with a non-empty word-character name becomes one `(\w+)` hole, and its name is pushed next, before the names of the rest |
| PathTemplate.CompileOtherChar | module.js:44 | a character other than `{` is kept as a literal and scanning goes on after it |
| PathTemplate.CompileUnclosedBrace | module.js:44 | a `{` not followed by a non-empty word run and `}` is kept as a literal, and scanning resumes right after it |
| PathTemplate.TwoHolesInOrder | module.js:44-46 | the variables of `{x}/{y}` are `x`, then `y` |
| PathTemplate.CompileRoute | module.js:42-49 | definition of one entry of the route table (path, pattern, variables); that no template is lost in it is stated by `PathTemplate.CompileRender` |
| PathTemplate.CompileRender | module.js:44-47 | compiling loses nothing: writing each hole back as `{name}` gives the template back |
| PathTemplate.CompileWithoutBraces | module.js:44 | a template without `{` compiles to its literal characters |
| PathTemplate.LiteralHasNoVariables | module.js:44-45 | literal characters record no variable name |
| PathTemplate.MatchHoleCorrect | module.js:112 | a hole matches exactly when it extends over some word characters after which the rest matches |
| PathTemplate.MatchFromCorrect | module.js:112 | the matcher accepts at a position exactly when some piece there is spelled by the pattern and is followed by an allowed end |
| PathTemplate.FirstMatchStart | module.js:112 | the unanchored search finds the first position where the pattern matches, or reports that none does |
| PathTemplate.GreedyEnd | module.js:97 | a hole takes the longest run of word characters after which the rest of the pattern still matches |
| PathTemplate.CaptureAt | module.js:97 | capture group 1 is a non-empty run of word characters |
| PathTemplate.TemplateCapture | module.js:97 | `url.match(regexp)[1]` exists exactly when the bare template matches somewhere in the URL, and is then a non-empty word run |
| PathTemplate.PutAllContents | module.js:95-98 | assigning one value to each variable gives an object whose keys are the variables, each holding that value, with no key twice |
| PathTemplate.PathParametersContents | module.js:94-100 | a template with variables whose pattern does not match the URL throws; otherwise each variable reads capture group 1, and no other key exists |
| PathTemplate.GetPathParametersFromUrl | module.js:94-100 | the loop of property assignments returns the path parameters object |
| PathTemplate.SpellsFill | module.js:112 | the pattern spells the template filled with word values |
| PathTemplate.FillMatchesAt | module.js:112 | a filled template matches where it is written |
| PathTemplate.LiteralConcat | module.js:112 | a literal prefix adds no variable and is written unchanged before the filled template |
| PathTemplate.InstanceRoutes | module.js:112 | a URL made of the base path and a filled template matches that route |
| PathTemplate.CaptureFill | module.js:97 | the capture of a filled template is the value written into its first hole |
| PathTemplate.InstanceCapture | module.js:97 | a URL that is exactly a filled template captures its first value |
| PathTemplate.CompileOneHole | module.js:44-48 | `/{x}` compiles to `/` and one hole, with variables `["x"]` |
| PathTemplate.GreedyOneHole | module.js:97 | the bare pattern of `/{x}` matches `/v1/abc` at its start and captures `v1` |
| PathTemplate.CaptureIgnoresBasePath | module.js:94-112 | with base path `/v1`, `/v1/abc` is routed to `/{x}`, yet its path parameters are `x = "v1"` |
| Operations.NormaliseRemovesParameters | module.js:378-380 | after the rewrite no `:` is followed by a word character |
| Operations.NormaliseFixes | module.js:378-380 | a route without `:name` is unchanged by the rewrite |
| Operations.NormaliseIdempotent | module.js:378-380 | rewriting twice is rewriting once |
| Operations.LowerCaseIdempotent | module.js:381 | lower-casing twice is lower-casing once |
| Operations.ResolveOperationMeaning | module.js:377-396 | the lookup succeeds exactly when the rewritten path is declared with the lower-cased verb, and then gives the parameters of the first entry for that path and verb, or `[]` when they are absent; otherwise the error names the rewritten path and the lower-cased verb |
| Operations.ResolveOperationCanonical | module.js:377-381 | any case of the verb resolves alike, and a path resolves as its rewritten form does |
| Operations.ColonFormRewrite | module.js:378-380 | the rewrite turns each `:name` of a route into `{name}`: a template written with colons becomes the template written with braces |
| Operations.ResolveOperationColonForm | module.js:377-389 | a route written with `:name` resolves to the same operation, or the same error, as the route written with `{name}` |
| Operations.UsersIdExample | module.js:378-381 | `/users/:id` is rewritten to `/users/{id}` and resolves as it does |
| Validation.MessageInjective | module.js:140-250 | two errors with the same message are the same error |
| Validation.BodyParameters | module.js:411 | definition of `req.body || {}`; what the body then yields is stated by `Validation.BodyWrongTypeIff` and `Validation.FormKeysExcess` |
| Validation.Lookup | module.js:139 | definition of reading a query or path value; what an absent one yields is stated by `Validation.MissingRequiredAlone` and `Validation.AbsentOptionalFailsEnum` |
| Validation.MissingRequiredAlone | module.js:136-191 | a required parameter that is absent yields exactly one "is not specified" and no type or enum error |
| Validation.NotSpecifiedOnlyWhenMissing | module.js:139-180 | "is not specified" comes only from a required, absent parameter of a handled location |
| Validation.SimpleWrongTypeIff | module.js:143-145 | a query, path or form parameter gets "does not respect its type" exactly when its value is truthy and fails the scalar check |
| Validation.BodyWrongTypeIff | module.js:166-176 | a body parameter gets a type error exactly when its property is truthy and the structural check fails, on the whole body when the name is `""`; it throws exactly when that check throws |
| Validation.EnumIndependentOfType | module.js:147-149 | the enum error does not depend on the declared type or format, and arises exactly when the parameter is not a missing required one, declares `enum`, and its value is not listed |
| Validation.AbsentOptionalFailsEnum | module.js:147-149 | an absent optional parameter with an `enum` not listing `undefined` gets exactly "has an unauthorized value" |
| Validation.MissingInDeclaredOrder | module.js:136-193 | the "is not specified" errors are one per missing required parameter, in declaration order |
| Validation.DeclaredThrowsIff | module.js:136-193 | the parameter loop throws exactly when the check of some declared parameter throws |
| Validation.IsPresentWithinTheSwagger | module.js:198-205 | the search is true exactly when some declared parameter has this location and name |
| Validation.UnlistedIff | module.js:226-236 | a key loop reports only "should not be specified", exactly for the keys no parameter of that location declares |
| Validation.SingleBodyAtMostOne | module.js:239-245 | a single body parameter yields at most one "contains extra values", and no per-key error for the body |
| Validation.FormKeysExcess | module.js:246-253 | otherwise the body keys not declared as form parameters are reported in key order, one error per listed key, and nothing else; a body with distinct keys repeats no error |
| Validation.UnlistedNoRepeat | module.js:226-236 | a key loop over keys listed once reports no error twice |
| Validation.BodyExcessKinds | module.js:239-253 | the body part of strict mode yields only "should not be specified" or "contains extra values" |
| Validation.StrictOffNoExcess | module.js:197 | with strict mode off, only the declared-parameter errors are produced |
| Validation.StrictExcessAfter | module.js:197-254 | with strict mode on, the errors are the declared-parameter errors, then the query keys, then the path keys, then the body, and every error after the declared ones is an excess error |
| Validation.NoErrorsAllSupplied | module.js:131-256 | a request without errors supplies every required parameter of a handled location |
| Config.ConfigureAcceptsOnlyValid | module.js:6-68 | the constructor succeeds exactly for a document with `paths` and `definitions` and options that are absent or each of the right type |
| Config.ConfigureErrorOrder | module.js:8-65 | which error is thrown, each one exactly when its check is the first to fail in source order (document, paths, options, onError, strict, allowNull), null giving a TypeError |
| Config.ConfigureSettings | module.js:11-35 | `strict` and `allowNull` are on only for `true`, a handler is kept only for a function, and the base path defaults to `''` |
| Middleware.RoutesOfValid | module.js:42-49 | one route per declared path, in key order, each remembering its path and listing its variables |
| Middleware.FirstRoute | module.js:108-121 | a route found is one of the routes and matches the URL |
| Middleware.FirstRouteMeaning | module.js:108-121 | none is found exactly when no route matches; otherwise the earliest matching route is returned |
| Middleware.DecideMeaning | module.js:415-425 | accept exactly on no errors; otherwise status 400 with all the errors, to `onError` exactly when it was configured; an exception stays an exception; never a silent pass |
| Middleware.Routed | module.js:446-465 | once a route is found, the request is never let through unchecked, and the only exception is a TypeError |
| Middleware.AllPassThroughIff | module.js:437-444 | `all()` calls `next()` untouched exactly when no declared path matches the URL |
| Middleware.InstanceNeverPassesThrough | module.js:437-444 | a URL written from a declared template behind the base path is always validated |
| Middleware.AllRejects | module.js:455-465 | a rejection by `all()` has status 400 and a nonempty error list, and goes to `onError` exactly when one was configured |
| Middleware.AllAcceptedSupplied | module.js:446-457 | a request `all()` accepts was routed to a declared operation and supplied all of its required parameters |
| Middleware.AllThrowsNoEntry | module.js:437-446 | `all()` throws the missing-entry error exactly when a path matches but its operation lookup fails, naming the rewritten path and the lower-cased verb |
| Middleware.Validator.constructor | module.js:40-56 | the loops push one compiled route per path and one name per model, in key order |
| Middleware.Validator.Create | module.js:6-68 | `new` throws exactly the error the argument checks give, and otherwise builds a valid validator with those settings |
| Middleware.Validator.GetParsingParameters | module.js:108-121 | the index loop with early return finds the first matching route |
| Middleware.Validator.GetErrors | module.js:131-256 | the aggregation of declared and strict errors returns `getErrors`'s list |
| Middleware.Validator.CheckDeclared | module.js:134-193 | the loop over the declared parameters returns their errors in order, or throws |
| Middleware.Validator.CheckBodyKeys | module.js:238-253 | the body part of strict mode |
| Middleware.Validator.HandleAll | module.js:432-467 | the `all()` middleware gives the outcome that routing, lookup, checking and deciding give |
| Middleware.Validator.Register | module.js:473-521 | definition of a per-verb registration as the operation lookup; what that lookup gives is stated by `Operations.ResolveOperationMeaning` |
| Middleware.Validator.HandleDeclared | module.js:403-427 | the per-operation middleware decides on the errors of its parameters, with `req.params` as given |
| Middleware.ListUndeclared | module.js:226-236 | a key loop pushes "should not be specified" for each undeclared key, in order |
| Middleware.DeclaredThrowsAt | module.js:136-193 | when the check of one declared parameter throws, the whole loop throws |

## Left out

- Express plumbing is not modelled: reading `req`, calling `res.status`, `next` and `onError`. Only the outcome those lines choose is modelled (`Middleware.Outcome`).
- The `console.log` line (module.js:240) is not modelled. It is output only.
- Property reads by name on strings and arrays (`"abc"[0]`, `length`) give `undefined` in the model. Request bodies are objects.
- Swagger.Step: a `$ref` walk reads only `definitions`, `paths` and `basePath` at the top of the document and only `$ref`, `type`, `properties`, `required` and `items` in a schema. Three cases differ from the JavaScript. (1) Any other top-level key reads as undefined, so `#/parameters/p` or `#/responses/r` throws at its second segment. (2) Any other schema key reads as undefined, so `#/definitions/A/additionalProperties` or `#/definitions/A/allOf/0` resolves to undefined, and checking against it throws. (3) Below `paths`, `basePath` or a scalar keyword the walk stays on an opaque value and never reaches undefined, so `#/paths/x` resolves to a schema with no keywords, which fails every non-null value, where the JavaScript reads `undefined.type` and throws when `x` is not a path.
- Case folding covers only the ASCII letters. `toLowerCase` and the `i` flag on other letters are not modelled.
- Regular-expression metacharacters inside a template or `basePath` other than `{name}` are matched as literal characters.
- A query value is a string. Arrays and objects built by the query-string parser are not modelled.
- Property names inherited from `Object.prototype` (`constructor`, `toString`) read as absent.
- A JSON body with a duplicated key is read by its first occurrence, whereas `JSON.parse` keeps the last one; the key loops list such a key as often as it appears, where `Object.keys` lists it once.
- `Object.keys` order is the order in which keys are listed. The engine's rule that lists integer-like keys first is not modelled.
- Scalar.SimpleTypeCheckValue: a non-string form value is converted to text only for integral numbers, fractions written with a point, and booleans. Exponent notation of `String(number)` and the text of arrays and objects are not modelled.
- Numbers are reals, so IEEE rounding, NaN and the infinities are not modelled. A parsed JSON body holds none of them.
- A `$ref` that ends on a value that is not a schema object (a string, the `paths` table) reads as a schema without keywords. Its own properties are not modelled.
- A parameter's `required` is a boolean. The loose `== true` on other values is not modelled.
- `enum` is a list of values. A non-array `enum` is not modelled.
- `basePath` is a string. A non-string `basePath` is not modelled.
- `paths` is an object of path templates. `Object.keys` of a non-object `paths` is not modelled.
- The source never reads parameters declared at path level. `header` parameters fall out of its `switch`. The model does the same.
- Middleware.Validator.constructor: requires `definitions`, which `Config.Configure` guarantees. The TypeError of `Object.keys(undefined)` is part of `Configure` and `Create`.

=== FILE: common.dfy ===
/** Option and Result, and ordered key/value lists standing for JavaScript
    objects whose own keys are listed in Object.keys order. */
module Common {

  datatype Option<T> = None | Some(value: T)

  datatype Result<T, E> = Ok(value: T) | Err(error: E)

  /** Index of the first entry whose key is `key` (a JavaScript property read). */
  function FindIndex<V>(entries: seq<(string, V)>, key: string): (r: Option<nat>)
    ensures r.Some? ==> r.value < |entries| && entries[r.value].0 == key
    ensures r.Some? ==> forall j :: 0 <= j < r.value ==> entries[j].0 != key
    ensures r.None? <==> forall j :: 0 <= j < |entries| ==> entries[j].0 != key
  {
    if |entries| == 0 then None
    else if entries[0].0 == key then Some(0)
    else match FindIndex(entries[1..], key)
      case None => None
      case Some(k) => Some(k + 1)
  }

  /** The value read for `key`, None when the object has no such own key. */
  function Find<V>(entries: seq<(string, V)>, key: string): (r: Option<V>)
    ensures r.Some? <==> exists j :: 0 <= j < |entries| && entries[j].0 == key
    ensures r.Some? ==> exists j :: 0 <= j < |entries| && entries[j] == (key, r.value)
  {
    match FindIndex(entries, key)
    case None => None
    case Some(k) => assert entries[k] == (key, entries[k].1); Some(entries[k].1)
  }

  /** Object.keys of an object given as its ordered entries. */
  function KeysOf<V>(entries: seq<(string, V)>): (ks: seq<string>)
    ensures |ks| == |entries|
    ensures forall j :: 0 <= j < |entries| ==> ks[j] == entries[j].0
  {
    if |entries| == 0 then [] else [entries[0].0] + KeysOf(entries[1..])
  }

  /** No key is listed twice, as in an object. */
  predicate DistinctKeys<V>(entries: seq<(string, V)>) {
    forall i, j :: 0 <= i < j < |entries| ==> entries[i].0 != entries[j].0
  }

  /** `obj[key] = v`: an existing own key keeps its place and takes the new
      value; a new key is added last. */
  function Put<V>(entries: seq<(string, V)>, key: string, v: V): seq<(string, V)> {
    match FindIndex(entries, key)
    case None => entries + [(key, v)]
    case Some(j) => entries[j := (key, v)]
  }

  /** After `obj[key] = v` the key reads `v` and every other key reads as
      before; no key is duplicated; the key order is kept, a new key
      coming last. */
  lemma PutMeaning<V>(entries: seq<(string, V)>, key: string, v: V)
    ensures Find(Put(entries, key, v), key) == Some(v)
    ensures forall k :: k != key ==> Find(Put(entries, key, v), k) == Find(entries, k)
    ensures DistinctKeys(entries) ==> DistinctKeys(Put(entries, key, v))
    ensures Find(entries, key).Some? ==> KeysOf(Put(entries, key, v)) == KeysOf(entries)
    ensures Find(entries, key).None? ==> KeysOf(Put(entries, key, v)) == KeysOf(entries) + [key]
  {
    match FindIndex(entries, key)
    case None => PutNew(entries, key, v);
    case Some(j) => PutExisting(entries, j, key, v);
  }

  lemma PutNew<V>(entries: seq<(string, V)>, key: string, v: V)
    requires FindIndex(entries, key).None?
    ensures Find(entries + [(key, v)], key) == Some(v)
    ensures forall k :: k != key ==> Find(entries + [(key, v)], k) == Find(entries, k)
    ensures DistinctKeys(entries) ==> DistinctKeys(entries + [(key, v)])
    ensures KeysOf(entries + [(key, v)]) == KeysOf(entries) + [key]
  {
    var r := entries + [(key, v)];
    assert r[|entries|] == (key, v);
    assert FindIndex(r, key) == Some(|entries|);
    forall k | k != key ensures Find(r, k) == Find(entries, k) {
      FindAppend(entries, (key, v), k);
    }
    AppendShape(entries, key, v);
  }

  lemma AppendShape<V>(entries: seq<(string, V)>, key: string, v: V)
    requires forall j :: 0 <= j < |entries| ==> entries[j].0 != key
    ensures DistinctKeys(entries) ==> DistinctKeys(entries + [(key, v)])
    ensures KeysOf(entries + [(key, v)]) == KeysOf(entries) + [key]
  {
    var r := entries + [(key, v)];
    if DistinctKeys(entries) {
      forall i, j | 0 <= i < j < |r| ensures r[i].0 != r[j].0 {
        assert r[i] == entries[i];
        if j < |entries| { assert r[j] == entries[j]; }
      }
    }
    var a := KeysOf(r);
    var b := KeysOf(entries) + [key];
    forall j | 0 <= j < |a| ensures a[j] == b[j] {
      if j < |entries| { assert r[j] == entries[j]; }
    }
    assert a == b;
  }

  lemma PutExisting<V>(entries: seq<(string, V)>, j: nat, key: string, v: V)
    requires FindIndex(entries, key) == Some(j)
    ensures Find(entries[j := (key, v)], key) == Some(v)
    ensures forall k :: k != key ==> Find(entries[j := (key, v)], k) == Find(entries, k)
    ensures DistinctKeys(entries) ==> DistinctKeys(entries[j := (key, v)])
    ensures KeysOf(entries[j := (key, v)]) == KeysOf(entries)
  {
    var r := entries[j := (key, v)];
    assert r[j] == (key, v);
    assert FindIndex(r, key) == Some(j);
    forall k | k != key ensures Find(r, k) == Find(entries, k) {
      FindUpdate(entries, j, (key, v), k);
    }
  }

  lemma {:induction false} FindAppend<V>(entries: seq<(string, V)>, e: (string, V), k: string)
    requires k != e.0
    ensures Find(entries + [e], k) == Find(entries, k)
  {
    FindIndexAppend(entries, e, k);
  }

  lemma {:induction false} FindIndexAppend<V>(entries: seq<(string, V)>, e: (string, V), k: string)
    requires k != e.0
    ensures FindIndex(entries + [e], k) == FindIndex(entries, k)
    decreases |entries|
  {
    if |entries| > 0 {
      assert (entries + [e])[1..] == entries[1..] + [e];
      FindIndexAppend(entries[1..], e, k);
    }
  }

  lemma {:induction false} FindUpdate<V>(entries: seq<(string, V)>, j: nat, e: (string, V), k: string)
    requires j < |entries| && entries[j].0 == e.0 && k != e.0
    ensures Find(entries[j := e], k) == Find(entries, k)
  {
    FindIndexUpdateOther(entries, j, e, k);
  }

  lemma {:induction false} FindIndexUpdateOther<V>(entries: seq<(string, V)>, j: nat, e: (string, V), k: string)
    requires j < |entries| && entries[j].0 == e.0 && k != e.0
    ensures FindIndex(entries[j := e], k) == FindIndex(entries, k)
    decreases |entries|
  {
    if j > 0 {
      assert entries[j := e][1..] == entries[1..][j - 1 := e];
      FindIndexUpdateOther(entries[1..], j - 1, e, k);
    }
  }
}

=== FILE: config.dfy ===
/** The argument checks of the `SwaggerInputValidator` constructor: what
    it accepts as the Swagger document and as options, which error it
    throws otherwise, and the settings it keeps. */
module Config {
  import opened Common
  import opened Swagger

  /** The first argument, by what the constructor's tests see of it: a
      falsy value other than null, null, some other truthy value that has
      no `paths` property, or an object read as a Swagger document. */
  datatype SwaggerArg = Falsy | NullValue | NoDocument | Document(doc: SwaggerDoc)

  /** One option, by what the tests see of it: falsy (absent included), a
      function, a boolean, or another truthy value. */
  datatype OptionValue = Unset | Function | Flag(b: bool) | OtherTruthy

  /** The second argument: falsy (absent included), a truthy value that is
      not an object, or an object with the three options. */
  datatype OptionsArg = NoOptions | NotAnObject | Options(onError: OptionValue, strict: OptionValue, allowNull: OptionValue)

  /** The errors the constructor throws; `TypeError` is the runtime's, for
      a property read on null or `Object.keys` of a missing `definitions`. */
  datatype ConfigError =
    | NoSwagger
    | NoPaths
    | OptionsNotObject
    | OnErrorNotFunction
    | StrictNotBoolean
    | AllowNullNotBoolean
    | TypeError

  function ConfigMessage(e: ConfigError): string {
    match e
    case NoSwagger => "Please provide a Swagger file in json format"
    case NoPaths => "The swagger specified is not correct. It do not contains any paths specification"
    case OptionsNotObject => "The parameter option in not an object"
    case OnErrorNotFunction => "The parameter onError in not a function"
    case StrictNotBoolean => "The parameter strict in not a boolean"
    case AllowNullNotBoolean => "The parameter allowNull in not a boolean"
    case TypeError => "TypeError"
  }

  /** What the constructor keeps: the document and its `paths`, the base
      path (`''` when absent), whether an error handler was given, and the
      two flags. */
  datatype Settings = Settings(
    doc: SwaggerDoc,
    paths: seq<(string, seq<(string, Operation)>)>,
    basePath: string,
    hasOnError: bool,
    strict: bool,
    allowNull: bool)

  predicate Truthy(o: OptionValue) {
    !o.Unset? && o != Flag(false)
  }

  /** `o && typeof o != 'boolean'`. */
  predicate BadFlag(o: OptionValue) {
    Truthy(o) && !o.Flag?
  }

  /** The checks of the constructor, in the order it makes them. */
  function Configure(swagger: SwaggerArg, options: OptionsArg): Result<Settings, ConfigError> {
    match swagger
    case Falsy => Err(NoSwagger)
    case NullValue => Err(TypeError)
    case NoDocument => Err(NoPaths)
    case Document(doc) =>
      if doc.paths.None? then Err(NoPaths)
      else if options.NotAnObject? then Err(OptionsNotObject)
      else if options.Options? && Truthy(options.onError) && !options.onError.Function? then Err(OnErrorNotFunction)
      else if options.Options? && BadFlag(options.strict) then Err(StrictNotBoolean)
      else if options.Options? && BadFlag(options.allowNull) then Err(AllowNullNotBoolean)
      else if doc.definitions.None? then Err(TypeError)
      else
        Ok(Settings(
          doc,
          doc.paths.value,
          if doc.basePath.Some? then doc.basePath.value else "",
          options.Options? && options.onError.Function?,
          options.Options? && options.strict == Flag(true),
          options.Options? && options.allowNull == Flag(true)))
  }

  /** An invalid argument is always an error, never a default: the
      validator is built only from a document with `paths` and
      `definitions`, and options each of which is absent or of its
      type. */
  lemma ConfigureAcceptsOnlyValid(swagger: SwaggerArg, options: OptionsArg)
    ensures Configure(swagger, options).Ok? <==>
      swagger.Document? && swagger.doc.paths.Some? && swagger.doc.definitions.Some? &&
      !options.NotAnObject? &&
      (options.Options? ==>
        (!Truthy(options.onError) || options.onError.Function?) &&
        !BadFlag(options.strict) && !BadFlag(options.allowNull))
  {
  }

  /** Which error is thrown: the first failing check, in source order. */
  lemma ConfigureErrorOrder(swagger: SwaggerArg, options: OptionsArg)
    ensures Configure(swagger, options) == Err(NoSwagger) <==> swagger.Falsy?
    ensures Configure(swagger, options) == Err(NoPaths) <==>
      swagger.NoDocument? || (swagger.Document? && swagger.doc.paths.None?)
    ensures Configure(swagger, options) == Err(OptionsNotObject) <==>
      swagger.Document? && swagger.doc.paths.Some? && options.NotAnObject?
    ensures Configure(swagger, options) == Err(OnErrorNotFunction) <==>
      swagger.Document? && swagger.doc.paths.Some? && options.Options? &&
      Truthy(options.onError) && !options.onError.Function?
    ensures Configure(swagger, options) == Err(StrictNotBoolean) <==>
      swagger.Document? && swagger.doc.paths.Some? && options.Options? &&
      (!Truthy(options.onError) || options.onError.Function?) && BadFlag(options.strict)
    ensures Configure(swagger, options) == Err(AllowNullNotBoolean) <==>
      swagger.Document? && swagger.doc.paths.Some? && options.Options? &&
      (!Truthy(options.onError) || options.onError.Function?) &&
      !BadFlag(options.strict) && BadFlag(options.allowNull)
    ensures Configure(swagger, options) == Err(TypeError) <==>
      swagger.NullValue? ||
      (swagger.Document? && swagger.doc.paths.Some? && swagger.doc.definitions.None? &&
       !options.NotAnObject? &&
       (options.Options? ==>
         (!Truthy(options.onError) || options.onError.Function?) &&
         !BadFlag(options.strict) && !BadFlag(options.allowNull)))
  {
  }

  /** The flags kept are true only for the boolean `true`; missing options
      leave no handler and both flags off. */
  lemma ConfigureSettings(swagger: SwaggerArg, options: OptionsArg)
    requires Configure(swagger, options).Ok?
    ensures Configure(swagger, options).value.strict <==> options.Options? && options.strict == Flag(true)
    ensures Configure(swagger, options).value.allowNull <==> options.Options? && options.allowNull == Flag(true)
    ensures Configure(swagger, options).value.hasOnError <==> options.Options? && options.onError.Function?
    ensures Configure(swagger, options).value.doc == swagger.doc
    ensures Configure(swagger, options).value.paths == swagger.doc.paths.value
    ensures swagger.doc.basePath.Some? ==> Configure(swagger, options).value.basePath == swagger.doc.basePath.value
    ensures swagger.doc.basePath.None? ==> Configure(swagger, options).value.basePath == ""
  {
  }
}

=== FILE: errors.dfy ===
/** Error aggregation (`getErrors`): the declared parameters are checked in
    order against the request, then, in strict mode, the keys the request
    carries are checked against the declarations. */
module Validation {
  import opened Common
  import opened Text
  import opened JsValues
  import opened Swagger
  import opened Scalar
  import opened Structural

  /** The five messages `getErrors` builds, by the parameter or key they
      name. */
  datatype ValidationError =
    | NotSpecified(name: string)
    | WrongType(name: string)
    | UnauthorizedValue(name: string)
    | ShouldNotBeSpecified(name: string)
    | ExtraValues(name: string)

  function Suffix(e: ValidationError): string {
    match e
    case NotSpecified(_) => " is not specified."
    case WrongType(_) => " does not respect its type."
    case UnauthorizedValue(_) => " has an unauthorized value."
    case ShouldNotBeSpecified(_) => " should not be specified."
    case ExtraValues(_) => " contains extra values."
  }

  /** The text of the `Error` object pushed for `e`. */
  function Message(e: ValidationError): string {
    "Parameter : " + e.name + Suffix(e)
  }

  lemma {:induction false} EndChar(m: string, pre: string, suf: string, k: nat)
    requires m == pre + suf && 1 <= k <= |suf|
    ensures m[|m| - k] == suf[|suf| - k]
  {
  }

  /** Three characters near the end of each suffix. */
  lemma SuffixEnds(e: ValidationError)
    ensures |Suffix(e)| >= 12
    ensures (Suffix(e)[|Suffix(e)| - 2], Suffix(e)[|Suffix(e)| - 3], Suffix(e)[|Suffix(e)| - 12]) ==
      match e
      case NotSpecified(_) => ('d', 'e', 't')
      case WrongType(_) => ('e', 'p', 'c')
      case UnauthorizedValue(_) => ('e', 'u', 'r')
      case ShouldNotBeSpecified(_) => ('d', 'e', 'e')
      case ExtraValues(_) => ('s', 'e', 'x')
  {
  }

  /** They tell the five messages apart. */
  lemma SuffixFromEnd(a: ValidationError, b: ValidationError)
    requires Suffix(a)[|Suffix(a)| - 2] == Suffix(b)[|Suffix(b)| - 2]
    requires Suffix(a)[|Suffix(a)| - 3] == Suffix(b)[|Suffix(b)| - 3]
    requires Suffix(a)[|Suffix(a)| - 12] == Suffix(b)[|Suffix(b)| - 12]
    ensures a.(name := "") == b.(name := "")
  {
    SuffixEnds(a);
    SuffixEnds(b);
  }

  /** Different errors have different messages: the message tells which
      check failed and for which name. */
  lemma MessageInjective(a: ValidationError, b: ValidationError)
    ensures Message(a) == Message(b) ==> a == b
  {
    if Message(a) == Message(b) {
      var m := Message(a);
      var sa, sb := Suffix(a), Suffix(b);
      SuffixEnds(a);
      SuffixEnds(b);
      EndChar(m, "Parameter : " + a.name, sa, 2);
      EndChar(m, "Parameter : " + b.name, sb, 2);
      EndChar(m, "Parameter : " + a.name, sa, 3);
      EndChar(m, "Parameter : " + b.name, sb, 3);
      EndChar(m, "Parameter : " + a.name, sa, 12);
      EndChar(m, "Parameter : " + b.name, sb, 12);
      SuffixFromEnd(a, b);
      assert sa == sb;
      assert a.name == m[12..12 + |a.name|];
      assert b.name == m[12..12 + |b.name|];
    }
  }

  /** The request as `getErrors` sees it: the query object and the path
      object (string values, own keys in order) and the body. */
  datatype Request = Request(query: seq<(string, string)>, path: seq<(string, string)>, body: JsValue)

  /** `req.body ? req.body : {}`. */
  function BodyParameters(raw: JsValue): (b: JsValue)
    ensures Truthy(b)
    ensures Truthy(raw) ==> b == raw
    ensures !Truthy(raw) ==> b == Obj([])
  {
    if Truthy(raw) then raw else Obj([])
  }

  /** `obj[name]` on an object of strings. */
  function Lookup(entries: seq<(string, string)>, name: string): (v: JsValue)
    ensures v.Undefined? <==> Find(entries, name).None?
    ensures Find(entries, name).Some? ==> v == Str(Find(entries, name).value)
  {
    match Find(entries, name)
    case None => Undefined
    case Some(s) => Str(s)
  }

  /** `v == undefined`. */
  predicate LooselyUndefined(v: JsValue) {
    v.Undefined? || v.Null?
  }

  /** The value a parameter reads from the request. */
  function Supplied(p: Parameter, req: Request): JsValue {
    if p.location == "query" then Lookup(req.query, p.name)
    else if p.location == "path" then Lookup(req.path, p.name)
    else Get(req.body, p.name)
  }

  /** The parameters checked against a string-like value. */
  predicate SimpleLocation(p: Parameter) {
    p.location == "query" || p.location == "path" || p.location == "formData"
  }

  /** The locations the switch of `getErrors` handles (`header` and others
      fall through). */
  predicate Checked(p: Parameter) {
    SimpleLocation(p) || p.location == "body"
  }

  /** Not supplied, as each case tests it: `== undefined`, except `===
      undefined` for the body. */
  predicate Missing(p: Parameter, req: Request) {
    if p.location == "body" then Supplied(p, req).Undefined? else LooselyUndefined(Supplied(p, req))
  }

  /** A query, path or form parameter: missing and required, or else a
      type check on a truthy value followed by an independent enum check. */
  function SimpleErrors(p: Parameter, v: JsValue): seq<ValidationError> {
    if LooselyUndefined(v) && p.required then [NotSpecified(p.name)]
    else
      (if Truthy(v) && !SimpleTypeCheckValue(v, p) then [WrongType(p.name)] else []) +
      (if p.allowed.Some? && !Includes(p.allowed.value, v) then [UnauthorizedValue(p.name)] else [])
  }

  /** A body parameter: the structural check of the whole body (name "")
      or of its property, gated on that property being truthy. Err when the
      check throws. */
  function BodyErrors(doc: SwaggerDoc, allowNull: bool, p: Parameter, body: JsValue): Result<seq<ValidationError>, ()> {
    var v := Get(body, p.name);
    if v.Undefined? && p.required then Ok([NotSpecified(p.name)])
    else if !Truthy(v) then Ok([])
    else
      match Check(doc, allowNull, if p.name == "" then body else v, p.schema)
      case Throws => Err(())
      case Pass => Ok([])
      case Fail => Ok([WrongType(p.name)])
  }

  /** One turn of the loop over the declared parameters. */
  function ParamErrors(doc: SwaggerDoc, allowNull: bool, p: Parameter, req: Request): Result<seq<ValidationError>, ()> {
    if SimpleLocation(p) then Ok(SimpleErrors(p, Supplied(p, req)))
    else if p.location == "body" then BodyErrors(doc, allowNull, p, req.body)
    else Ok([])
  }

  /** The errors of the declared parameters, in declaration order; Err as
      soon as one check throws. */
  function DeclaredErrors(doc: SwaggerDoc, allowNull: bool, params: seq<Parameter>, req: Request)
    : Result<seq<ValidationError>, ()>
    decreases |params|
  {
    if |params| == 0 then Ok([])
    else match DeclaredErrors(doc, allowNull, params[..|params| - 1], req)
      case Err(e) => Err(e)
      case Ok(d) =>
        match ParamErrors(doc, allowNull, params[|params| - 1], req)
        case Err(e) => Err(e)
        case Ok(x) => Ok(d + x)
  }

  // ---------------------------------------------------------------------
  // Properties of one declared parameter

  /** A required parameter that is not supplied yields exactly one error,
      "is not specified", and no type or enum error. */
  lemma MissingRequiredAlone(doc: SwaggerDoc, allowNull: bool, p: Parameter, req: Request)
    requires Checked(p) && p.required && Missing(p, req)
    ensures ParamErrors(doc, allowNull, p, req) == Ok([NotSpecified(p.name)])
  {
  }

  /** "is not specified" is produced only for a required, missing
      parameter of a handled location. */
  lemma NotSpecifiedOnlyWhenMissing(doc: SwaggerDoc, allowNull: bool, p: Parameter, req: Request, e: ValidationError)
    requires ParamErrors(doc, allowNull, p, req).Ok? && e in ParamErrors(doc, allowNull, p, req).value
    requires e.NotSpecified?
    ensures e == NotSpecified(p.name) && Checked(p) && p.required && Missing(p, req)
  {
  }

  /** The type check of a query, path or form parameter runs only on a
      truthy value, and reports exactly a failed scalar check. */
  lemma SimpleWrongTypeIff(doc: SwaggerDoc, allowNull: bool, p: Parameter, req: Request)
    requires SimpleLocation(p)
    ensures WrongType(p.name) in ParamErrors(doc, allowNull, p, req).value <==>
      Truthy(Supplied(p, req)) && !SimpleTypeCheckValue(Supplied(p, req), p)
  {
  }

  /** A body parameter is type checked only when its property is truthy;
      the check is on the whole body when its name is empty. */
  lemma BodyWrongTypeIff(doc: SwaggerDoc, allowNull: bool, p: Parameter, req: Request)
    requires p.location == "body"
    ensures ParamErrors(doc, allowNull, p, req).Ok? && WrongType(p.name) in ParamErrors(doc, allowNull, p, req).value <==>
      Truthy(Get(req.body, p.name)) &&
      Check(doc, allowNull, if p.name == "" then req.body else Get(req.body, p.name), p.schema) == Fail
    ensures ParamErrors(doc, allowNull, p, req).Err? <==>
      Truthy(Get(req.body, p.name)) &&
      Check(doc, allowNull, if p.name == "" then req.body else Get(req.body, p.name), p.schema) == Throws
  {
  }

  /** The enum check of a query, path or form parameter does not depend on
      the declared type or format, nor on the outcome of the type check. */
  lemma EnumIndependentOfType(doc: SwaggerDoc, allowNull: bool, p: Parameter, req: Request, t: Option<string>, f: Option<string>)
    requires SimpleLocation(p)
    ensures UnauthorizedValue(p.name) in ParamErrors(doc, allowNull, p, req).value <==>
            UnauthorizedValue(p.name) in ParamErrors(doc, allowNull, p.(typ := t, format := f), req).value
    ensures UnauthorizedValue(p.name) in ParamErrors(doc, allowNull, p, req).value <==>
            !(p.required && Missing(p, req)) && p.allowed.Some? && !Includes(p.allowed.value, Supplied(p, req))
  {
  }

  /** An optional parameter that is absent still fails a declared enum. */
  lemma AbsentOptionalFailsEnum(doc: SwaggerDoc, allowNull: bool, p: Parameter, req: Request)
    requires SimpleLocation(p) && !p.required && Supplied(p, req).Undefined?
    requires p.allowed.Some? && !Includes(p.allowed.value, Undefined)
    ensures ParamErrors(doc, allowNull, p, req) == Ok([UnauthorizedValue(p.name)])
  {
    assert !Truthy(Supplied(p, req));
    assert [] + [UnauthorizedValue(p.name)] == [UnauthorizedValue(p.name)];
  }

  // ---------------------------------------------------------------------
  // Properties of the declared-parameter loop

  /** The "is not specified" errors of a list. */
  function NotSpecifiedIn(es: seq<ValidationError>): seq<ValidationError> {
    if |es| == 0 then [] else (if es[0].NotSpecified? then [es[0]] else []) + NotSpecifiedIn(es[1..])
  }

  lemma {:induction false} NotSpecifiedConcat(a: seq<ValidationError>, b: seq<ValidationError>)
    ensures NotSpecifiedIn(a + b) == NotSpecifiedIn(a) + NotSpecifiedIn(b)
    decreases |a|
  {
    if |a| > 0 {
      assert (a + b)[0] == a[0];
      assert (a + b)[1..] == a[1..] + b;
      NotSpecifiedConcat(a[1..], b);
    } else {
      assert a + b == b;
    }
  }

  /** The required parameters that are missing, in declaration order. */
  function MissingRequired(params: seq<Parameter>, req: Request): seq<ValidationError>
    decreases |params|
  {
    if |params| == 0 then []
    else
      var p := params[|params| - 1];
      MissingRequired(params[..|params| - 1], req) +
      (if Checked(p) && p.required && Missing(p, req) then [NotSpecified(p.name)] else [])
  }

  lemma ParamNotSpecified(doc: SwaggerDoc, allowNull: bool, p: Parameter, req: Request)
    requires ParamErrors(doc, allowNull, p, req).Ok?
    ensures NotSpecifiedIn(ParamErrors(doc, allowNull, p, req).value) ==
      (if Checked(p) && p.required && Missing(p, req) then [NotSpecified(p.name)] else [])
  {
    var x := ParamErrors(doc, allowNull, p, req).value;
    if !(Checked(p) && p.required && Missing(p, req)) {
      assert forall k :: 0 <= k < |x| ==> !x[k].NotSpecified?;
      NoneNotSpecified(x);
    }
  }

  lemma {:induction false} NoneNotSpecified(es: seq<ValidationError>)
    requires forall k :: 0 <= k < |es| ==> !es[k].NotSpecified?
    ensures NotSpecifiedIn(es) == []
    decreases |es|
  {
    if |es| > 0 {
      NoneNotSpecified(es[1..]);
    }
  }

  /** Each required parameter that is missing is reported once, in the
      order the parameters are declared, and no other "is not specified"
      error appears. */
  lemma {:induction false} MissingInDeclaredOrder(doc: SwaggerDoc, allowNull: bool, params: seq<Parameter>, req: Request)
    requires DeclaredErrors(doc, allowNull, params, req).Ok?
    ensures NotSpecifiedIn(DeclaredErrors(doc, allowNull, params, req).value) == MissingRequired(params, req)
    decreases |params|
  {
    if |params| > 0 {
      var init := params[..|params| - 1];
      var p := params[|params| - 1];
      MissingInDeclaredOrder(doc, allowNull, init, req);
      ParamNotSpecified(doc, allowNull, p, req);
      NotSpecifiedConcat(DeclaredErrors(doc, allowNull, init, req).value, ParamErrors(doc, allowNull, p, req).value);
    }
  }

  /** The check of the declared parameter at index j throws. */
  predicate ThrowsAt(doc: SwaggerDoc, allowNull: bool, params: seq<Parameter>, req: Request, j: int) {
    0 <= j < |params| && Raises(doc, allowNull, params[j], req)
  }

  /** The check of one declared parameter throws. */
  predicate Raises(doc: SwaggerDoc, allowNull: bool, p: Parameter, req: Request) {
    ParamErrors(doc, allowNull, p, req).Err?
  }

  lemma DeclaredStep(doc: SwaggerDoc, allowNull: bool, params: seq<Parameter>, req: Request)
    requires |params| > 0
    ensures DeclaredErrors(doc, allowNull, params, req).Err? <==>
      DeclaredErrors(doc, allowNull, params[..|params| - 1], req).Err? ||
      ParamErrors(doc, allowNull, params[|params| - 1], req).Err?
  {
  }

  lemma ThrowsAtPrefix(doc: SwaggerDoc, allowNull: bool, params: seq<Parameter>, init: seq<Parameter>, req: Request, j: int)
    requires |init| <= |params| && init == params[..|init|] && 0 <= j < |init|
    ensures ThrowsAt(doc, allowNull, init, req, j) <==> ThrowsAt(doc, allowNull, params, req, j)
  {
    assert init[j] == params[j];
  }

  lemma ThrowsAtShrink(doc: SwaggerDoc, allowNull: bool, params: seq<Parameter>, init: seq<Parameter>, req: Request)
    requires |params| > 0 && init == params[..|params| - 1]
    requires exists j :: ThrowsAt(doc, allowNull, params, req, j)
    ensures (exists j :: ThrowsAt(doc, allowNull, init, req, j)) || Raises(doc, allowNull, params[|params| - 1], req)
  {
    var j :| ThrowsAt(doc, allowNull, params, req, j);
    if j < |params| - 1 {
      ThrowsAtPrefix(doc, allowNull, params, init, req, j);
    }
  }

  lemma ThrowsAtGrow(doc: SwaggerDoc, allowNull: bool, params: seq<Parameter>, init: seq<Parameter>, req: Request)
    requires |params| > 0 && init == params[..|params| - 1]
    requires (exists j :: ThrowsAt(doc, allowNull, init, req, j)) || Raises(doc, allowNull, params[|params| - 1], req)
    ensures exists j :: ThrowsAt(doc, allowNull, params, req, j)
  {
    if exists j :: ThrowsAt(doc, allowNull, init, req, j) {
      var j :| ThrowsAt(doc, allowNull, init, req, j);
      ThrowsAtPrefix(doc, allowNull, params, init, req, j);
    } else {
      assert ThrowsAt(doc, allowNull, params, req, |params| - 1);
    }
  }

  lemma ThrowsAtSplit(doc: SwaggerDoc, allowNull: bool, params: seq<Parameter>, init: seq<Parameter>, req: Request)
    requires |params| > 0 && init == params[..|params| - 1]
    ensures (exists j :: ThrowsAt(doc, allowNull, params, req, j)) <==>
      (exists j :: ThrowsAt(doc, allowNull, init, req, j)) ||
      Raises(doc, allowNull, params[|params| - 1], req)
  {
    if exists j :: ThrowsAt(doc, allowNull, params, req, j) {
      ThrowsAtShrink(doc, allowNull, params, init, req);
    }
    if (exists j :: ThrowsAt(doc, allowNull, init, req, j)) || Raises(doc, allowNull, params[|params| - 1], req) {
      ThrowsAtGrow(doc, allowNull, params, init, req);
    }
  }

  /** The loop throws exactly when the check of some declared parameter
      throws. */
  lemma {:induction false} DeclaredThrowsIff(doc: SwaggerDoc, allowNull: bool, params: seq<Parameter>, req: Request)
    ensures DeclaredErrors(doc, allowNull, params, req).Err? <==>
      exists j :: ThrowsAt(doc, allowNull, params, req, j)
    decreases |params|
  {
    if |params| > 0 {
      DeclaredThrowsIff(doc, allowNull, params[..|params| - 1], req);
      DeclaredStep(doc, allowNull, params, req);
      ThrowsAtSplit(doc, allowNull, params, params[..|params| - 1], req);
    }
  }

  // ---------------------------------------------------------------------
  // Strict mode

  /** `isPresentWithinTheSwagger`: some declared parameter has this
      location and name. */
  predicate Declares(params: seq<Parameter>, location: string, name: string) {
    exists j :: 0 <= j < |params| && params[j].location == location && params[j].name == name
  }

  /** `isPresentWithinTheSwagger`, the loop with its early return. */
  method IsPresentWithinTheSwagger(params: seq<Parameter>, location: string, name: string) returns (b: bool)
    ensures b <==> Declares(params, location, name)
  {
    for j := 0 to |params|
      invariant forall k :: 0 <= k < j ==> !(params[k].location == location && params[k].name == name)
    {
      if params[j].location == location && params[j].name == name {
        return true;
      }
    }
    return false;
  }

  /** "should not be specified" for each key, in order, that no parameter
      of this location declares. */
  function Unlisted(params: seq<Parameter>, location: string, keys: seq<string>): seq<ValidationError>
    decreases |keys|
  {
    if |keys| == 0 then []
    else
      Unlisted(params, location, keys[..|keys| - 1]) +
      (if Declares(params, location, keys[|keys| - 1]) then [] else [ShouldNotBeSpecified(keys[|keys| - 1])])
  }

  /** Unlisted reports exactly the undeclared keys, and nothing else. */
  lemma {:induction false} UnlistedIff(params: seq<Parameter>, location: string, keys: seq<string>)
    ensures forall e :: e in Unlisted(params, location, keys) ==> e.ShouldNotBeSpecified?
    ensures forall k :: ShouldNotBeSpecified(k) in Unlisted(params, location, keys) <==>
                        k in keys && !Declares(params, location, k)
    decreases |keys|
  {
    if |keys| > 0 {
      var init := keys[..|keys| - 1];
      UnlistedIff(params, location, init);
      assert keys == init + [keys[|keys| - 1]];
    }
  }

  /** Keys listed once are reported at most once each. */
  lemma {:induction false} UnlistedNoRepeat(params: seq<Parameter>, location: string, keys: seq<string>)
    requires forall i, j :: 0 <= i < j < |keys| ==> keys[i] != keys[j]
    ensures forall i, j :: 0 <= i < j < |Unlisted(params, location, keys)| ==>
      Unlisted(params, location, keys)[i] != Unlisted(params, location, keys)[j]
    decreases |keys|
  {
    if |keys| > 0 {
      var init := keys[..|keys| - 1];
      var last := keys[|keys| - 1];
      UnlistedNoRepeat(params, location, init);
      UnlistedIff(params, location, init);
      assert last !in init by {
        forall m | 0 <= m < |init| ensures init[m] != last {
          assert init[m] == keys[m];
        }
      }
      assert ShouldNotBeSpecified(last) !in Unlisted(params, location, init);
    }
  }

  /** The operation declares exactly one parameter, in the body. */
  predicate SingleBody(params: seq<Parameter>) {
    |params| == 1 && params[0].location == "body"
  }

  /** The body part of the strict check: one structural search for extra
      values when the body is the single parameter, otherwise the body keys
      compared with the form parameters. Err when it throws. */
  function BodyExcess(doc: SwaggerDoc, params: seq<Parameter>, body: JsValue): Result<seq<ValidationError>, ()> {
    if SingleBody(params) then
      var target := if params[0].name == "" then body else Get(body, params[0].name);
      match HasExtra(doc, target, params[0].schema)
      case Err(_) => Err(())
      case Ok(extra) => Ok(if extra then [ExtraValues(params[0].name)] else [])
    else
      match Entries(body)
      case None => Err(())
      case Some(es) => Ok(Unlisted(params, "formData", KeysOf(es)))
  }

  /** `getErrors`. */
  function RequestErrors(doc: SwaggerDoc, allowNull: bool, strict: bool, params: seq<Parameter>, req: Request)
    : Result<seq<ValidationError>, ()>
  {
    match DeclaredErrors(doc, allowNull, params, req)
    case Err(e) => Err(e)
    case Ok(d) =>
      if !strict then Ok(d)
      else match BodyExcess(doc, params, req.body)
        case Err(e) => Err(e)
        case Ok(b) =>
          Ok(d + Unlisted(params, "query", KeysOf(req.query)) + Unlisted(params, "path", KeysOf(req.path)) + b)
  }

  /** A single body parameter yields at most one "contains extra values"
      and no per-key error for the body. */
  lemma SingleBodyAtMostOne(doc: SwaggerDoc, params: seq<Parameter>, body: JsValue)
    requires SingleBody(params) && BodyExcess(doc, params, body).Ok?
    ensures BodyExcess(doc, params, body).value in {[], [ExtraValues(params[0].name)]}
  {
  }

  /** Otherwise every body key not declared as a form parameter is
      reported, in key order and once for each time it is listed, and
      nothing else; so an object with distinct keys repeats no error. */
  lemma FormKeysExcess(doc: SwaggerDoc, params: seq<Parameter>, body: JsValue)
    requires !SingleBody(params) && body.Obj?
    ensures BodyExcess(doc, params, body).Ok?
    ensures BodyExcess(doc, params, body).value == Unlisted(params, "formData", KeysOf(body.fields))
    ensures DistinctKeys(body.fields) ==>
      forall i, j :: 0 <= i < j < |BodyExcess(doc, params, body).value| ==>
        BodyExcess(doc, params, body).value[i] != BodyExcess(doc, params, body).value[j]
    ensures forall e :: e in BodyExcess(doc, params, body).value ==> e.ShouldNotBeSpecified?
    ensures forall k :: ShouldNotBeSpecified(k) in BodyExcess(doc, params, body).value <==>
      (exists j :: 0 <= j < |body.fields| && body.fields[j].0 == k) && !Declares(params, "formData", k)
  {
    var ks := KeysOf(body.fields);
    UnlistedIff(params, "formData", ks);
    if DistinctKeys(body.fields) {
      UnlistedNoRepeat(params, "formData", ks);
    }
    forall k ensures k in ks <==> exists j :: 0 <= j < |body.fields| && body.fields[j].0 == k {
      if k in ks {
        var j :| 0 <= j < |ks| && ks[j] == k;
        assert body.fields[j].0 == k;
      }
    }
  }

  /** With strict mode off, only the declared parameters are checked. */
  lemma StrictOffNoExcess(doc: SwaggerDoc, allowNull: bool, params: seq<Parameter>, req: Request)
    ensures RequestErrors(doc, allowNull, false, params, req) == DeclaredErrors(doc, allowNull, params, req)
  {
  }

  lemma UnlistedKind(params: seq<Parameter>, location: string, keys: seq<string>)
    ensures forall e :: e in Unlisted(params, location, keys) ==> e.ShouldNotBeSpecified?
  {
    UnlistedIff(params, location, keys);
  }

  /** Only the two excess kinds come out of the body's strict check. */
  lemma BodyExcessKinds(doc: SwaggerDoc, params: seq<Parameter>, body: JsValue)
    requires BodyExcess(doc, params, body).Ok?
    ensures forall e :: e in BodyExcess(doc, params, body).value ==> e.ShouldNotBeSpecified? || e.ExtraValues?
  {
    if !SingleBody(params) {
      UnlistedKind(params, "formData", KeysOf(Entries(body).value));
    }
  }

  /** The errors after the first |d| of `d + q + p + b` all come from
      `q`, `p` or `b`. */
  lemma ExcessTail(all: seq<ValidationError>, d: seq<ValidationError>, q: seq<ValidationError>,
                   p: seq<ValidationError>, b: seq<ValidationError>)
    requires all == d + q + p + b
    requires forall e :: e in q ==> e.ShouldNotBeSpecified?
    requires forall e :: e in p ==> e.ShouldNotBeSpecified?
    requires forall e :: e in b ==> e.ShouldNotBeSpecified? || e.ExtraValues?
    ensures all == d + (q + p + b)
    ensures forall k :: |d| <= k < |all| ==> all[k].ShouldNotBeSpecified? || all[k].ExtraValues?
  {
    var tail := q + p + b;
    assert all == d + tail;
    forall k | |d| <= k < |all| ensures all[k].ShouldNotBeSpecified? || all[k].ExtraValues? {
      assert all[k] == tail[k - |d|];
      assert all[k] in q + p + b;
    }
  }

  lemma StrictShape(doc: SwaggerDoc, allowNull: bool, params: seq<Parameter>, req: Request)
    requires RequestErrors(doc, allowNull, true, params, req).Ok?
    ensures DeclaredErrors(doc, allowNull, params, req).Ok?
    ensures BodyExcess(doc, params, req.body).Ok?
    ensures RequestErrors(doc, allowNull, true, params, req).value ==
      DeclaredErrors(doc, allowNull, params, req).value +
      Unlisted(params, "query", KeysOf(req.query)) +
      Unlisted(params, "path", KeysOf(req.path)) +
      BodyExcess(doc, params, req.body).value
  {
  }

  /** With strict mode on, the excess errors follow all the declared
      parameters' errors: first the undeclared query keys, then the
      undeclared path keys, then the body's. */
  lemma StrictExcessAfter(doc: SwaggerDoc, allowNull: bool, params: seq<Parameter>, req: Request)
    requires RequestErrors(doc, allowNull, true, params, req).Ok?
    ensures DeclaredErrors(doc, allowNull, params, req).Ok?
    ensures BodyExcess(doc, params, req.body).Ok?
    ensures RequestErrors(doc, allowNull, true, params, req).value ==
      DeclaredErrors(doc, allowNull, params, req).value +
      (Unlisted(params, "query", KeysOf(req.query)) +
       Unlisted(params, "path", KeysOf(req.path)) +
       BodyExcess(doc, params, req.body).value)
    ensures forall k :: (|DeclaredErrors(doc, allowNull, params, req).value| <= k <
                         |RequestErrors(doc, allowNull, true, params, req).value|) ==>
        RequestErrors(doc, allowNull, true, params, req).value[k].ShouldNotBeSpecified? ||
        RequestErrors(doc, allowNull, true, params, req).value[k].ExtraValues?
  {
    StrictShape(doc, allowNull, params, req);
    UnlistedKind(params, "query", KeysOf(req.query));
    UnlistedKind(params, "path", KeysOf(req.path));
    BodyExcessKinds(doc, params, req.body);
    ExcessTail(RequestErrors(doc, allowNull, true, params, req).value,
      DeclaredErrors(doc, allowNull, params, req).value,
      Unlisted(params, "query", KeysOf(req.query)),
      Unlisted(params, "path", KeysOf(req.path)),
      BodyExcess(doc, params, req.body).value);
  }

  /** A request without errors supplies every required parameter. */
  lemma {:induction false} NoErrorsAllSupplied(doc: SwaggerDoc, allowNull: bool, strict: bool, params: seq<Parameter>, req: Request)
    requires RequestErrors(doc, allowNull, strict, params, req) == Ok([])
    ensures forall j :: 0 <= j < |params| && Checked(params[j]) && params[j].required ==> !Missing(params[j], req)
  {
    assert DeclaredErrors(doc, allowNull, params, req) == Ok([]);
    MissingInDeclaredOrder(doc, allowNull, params, req);
    assert NotSpecifiedIn([]) == [];
    MissingRequiredEmpty(params, req);
  }

  lemma {:induction false} MissingRequiredEmpty(params: seq<Parameter>, req: Request)
    requires MissingRequired(params, req) == []
    ensures forall j :: 0 <= j < |params| && Checked(params[j]) && params[j].required ==> !Missing(params[j], req)
    decreases |params|
  {
    if |params| > 0 {
      var init := params[..|params| - 1];
      MissingRequiredEmpty(init, req);
      assert forall j :: 0 <= j < |init| ==> init[j] == params[j];
    }
  }
}

=== FILE: js_value.dfy ===
/** The JavaScript values the validator inspects: parsed request bodies
    (JSON, plus `undefined` for a property that is not there) and the
    operations of the runtime it uses on them: truthiness, `typeof`,
    `===`, property reads and `Object.keys`. */
module JsValues {
  import opened Common
  import opened Text

  /** `Obj` lists its own properties in Object.keys order. Numbers are
      reals: a parsed JSON number is finite, so NaN and the infinities
      never occur in a body. */
  datatype JsValue =
    | Undefined
    | Null
    | Bool(b: bool)
    | Num(n: real)
    | Str(s: string)
    | Arr(elems: seq<JsValue>)
    | Obj(fields: seq<(string, JsValue)>)

  predicate Truthy(v: JsValue) {
    match v
    case Undefined => false
    case Null => false
    case Bool(b) => b
    case Num(n) => n != 0.0
    case Str(s) => s != ""
    case Arr(_) => true
    case Obj(_) => true
  }

  /** `typeof v`. */
  function TypeOf(v: JsValue): string {
    match v
    case Undefined => "undefined"
    case Bool(_) => "boolean"
    case Num(_) => "number"
    case Str(_) => "string"
    case _ => "object"
  }

  /** `n % 1 == 0` for a finite number. */
  predicate IsIntegral(n: real) {
    n.Floor as real == n
  }

  /** `a === b`. Arrays and objects are compared by identity; two values
      coming from different JSON documents are never the same object. */
  predicate StrictEquals(a: JsValue, b: JsValue) {
    match (a, b)
    case (Undefined, Undefined) => true
    case (Null, Null) => true
    case (Bool(x), Bool(y)) => x == y
    case (Num(x), Num(y)) => x == y
    case (Str(x), Str(y)) => x == y
    case _ => false
  }

  /** `list.indexOf(v) != -1`. */
  predicate Includes(list: seq<JsValue>, v: JsValue) {
    exists k :: 0 <= k < |list| && StrictEquals(list[k], v)
  }

  /** A measure on values: every value stored inside an array or an object
      is smaller than it, and `undefined` is the smallest of all. */
  function Size(v: JsValue): nat {
    match v
    case Undefined => 0
    case Arr(e) => 1 + ElemsSize(e)
    case Obj(f) => 1 + FieldsSize(f)
    case _ => 1
  }

  function ElemsSize(e: seq<JsValue>): nat {
    if |e| == 0 then 0 else Size(e[0]) + ElemsSize(e[1..])
  }

  function FieldsSize(f: seq<(string, JsValue)>): nat {
    if |f| == 0 then 0 else FieldSize(f[0]) + FieldsSize(f[1..])
  }

  function FieldSize(p: (string, JsValue)): nat {
    Size(p.1)
  }

  lemma {:induction false} ElemSmaller(e: seq<JsValue>, j: nat)
    requires j < |e|
    ensures Size(e[j]) <= ElemsSize(e)
  {
    if j > 0 {
      ElemSmaller(e[1..], j - 1);
    }
  }

  lemma {:induction false} FieldSmaller(f: seq<(string, JsValue)>, j: nat)
    requires j < |f|
    ensures Size(f[j].1) <= FieldsSize(f)
  {
    if j > 0 {
      FieldSmaller(f[1..], j - 1);
    }
  }

  /** `v[key]`: the own property of an object, `undefined` otherwise. */
  function Get(v: JsValue, key: string): (r: JsValue)
    ensures r == Undefined || Size(r) < Size(v)
    ensures v.Obj? && r != Undefined ==> exists j :: 0 <= j < |v.fields| && v.fields[j] == (key, r)
    ensures !v.Obj? ==> r == Undefined
    ensures v.Obj? ==> r == (match Find(v.fields, key) case Some(x) => x case None => Undefined)
  {
    match v
    case Obj(f) =>
      (match FindIndex(f, key)
       case None => Undefined
       case Some(j) =>
         FieldSmaller(f, j);
         assert f[j] == (key, f[j].1);
         f[j].1)
    case _ => Undefined
  }

  /** The `(key, value)` pairs `Object.keys(v).forEach` visits, or None
      when `Object.keys` throws (on `undefined` and `null`). */
  function Entries(v: JsValue): (r: Option<seq<(string, JsValue)>>)
    ensures r.None? <==> v.Undefined? || v.Null?
    ensures v.Obj? ==> r == Some(v.fields)
    ensures r.Some? ==> forall j :: 0 <= j < |r.value| && (r.value[j].1.Obj? || r.value[j].1.Null?)
                                    ==> Size(r.value[j].1) < Size(v)
  {
    match v
    case Undefined => None
    case Null => None
    case Obj(f) =>
      assert forall j :: 0 <= j < |f| ==> Size(f[j].1) < Size(v) by {
        forall j | 0 <= j < |f| ensures Size(f[j].1) < Size(v) { FieldSmaller(f, j); }
      }
      Some(f)
    case Arr(e) =>
      assert forall j :: 0 <= j < |e| ==> Size(e[j]) < Size(v) by {
        forall j | 0 <= j < |e| ensures Size(e[j]) < Size(v) { ElemSmaller(e, j); }
      }
      Some(seq(|e|, j requires 0 <= j < |e| => (NatToString(j), e[j])))
    case Str(s) => Some(seq(|s|, j requires 0 <= j < |s| => (NatToString(j), Str([s[j]]))))
    case _ => Some([])
  }
}

=== FILE: operations.dfy ===
/** Operation resolution (`getRequiredParameters`): an Express route such
    as `/users/:id` is rewritten to the Swagger template `/users/{id}`, the
    verb is lower-cased, and the parameter list of that path and verb is
    looked up. */
module Operations {
  import opened Common
  import opened Text
  import opened Swagger
  import opened PathTemplate

  /** `url.replace(/:(\w+)/gi, "{$1}")`: scanning left to right, a `:`
      followed by a maximal run of word characters becomes `{run}`. */
  function NormaliseRoute(t: string): (r: string)
    decreases |t|
  {
    if |t| == 0 then ""
    else
      var n := if t[0] == ':' then WordRun(t, 1) else 0;
      if t[0] == ':' && n > 0 then "{" + t[1..1 + n] + "}" + NormaliseRoute(t[1 + n..])
      else [t[0]] + NormaliseRoute(t[1..])
  }

  /** No `:` is directly followed by a word character. */
  predicate NoRouteParameter(r: string) {
    forall k :: 0 <= k < |r| - 1 && r[k] == ':' ==> !IsWordChar(r[k + 1])
  }

  /** The first character of the rewritten route. */
  lemma NormaliseHead(t: string)
    requires |t| > 0
    ensures |NormaliseRoute(t)| > 0
    ensures NormaliseRoute(t)[0] == (if t[0] == ':' && |t| > 1 && IsWordChar(t[1]) then '{' else t[0])
  {
  }

  /** Joining two texts without `:name` gives none, unless a `:` ending
      the first is followed by a word character starting the second. */
  lemma NoRouteParameterJoin(a: string, b: string)
    requires NoRouteParameter(a) && NoRouteParameter(b)
    requires |a| > 0 && |b| > 0 ==> a[|a| - 1] != ':' || !IsWordChar(b[0])
    ensures NoRouteParameter(a + b)
  {
    var r := a + b;
    forall k | 0 <= k < |r| - 1 && r[k] == ':' ensures !IsWordChar(r[k + 1]) {
      if k < |a| - 1 {
        assert r[k] == a[k] && r[k + 1] == a[k + 1];
      } else if k == |a| - 1 {
        assert r[k] == a[k] && r[k + 1] == b[0];
      } else {
        assert r[k] == b[k - |a|] && r[k + 1] == b[k + 1 - |a|];
      }
    }
  }

  /** A `:name` at the front is rewritten to `{name}`, which holds no `:`. */
  lemma NormaliseParameterStep(t: string, n: nat)
    requires |t| > 0 && t[0] == ':' && n == WordRun(t, 1) && n > 0
    requires NoRouteParameter(NormaliseRoute(t[1 + n..]))
    ensures NoRouteParameter(NormaliseRoute(t))
  {
    var head := "{" + t[1..1 + n] + "}";
    assert forall k :: 0 <= k < |head| ==> head[k] != ':' by {
      forall k | 0 <= k < |head| ensures head[k] != ':' {
        if 0 < k <= n { assert head[k] == t[k] && IsWordChar(t[k]); }
      }
    }
    assert NormaliseRoute(t) == head + NormaliseRoute(t[1 + n..]);
    NoRouteParameterJoin(head, NormaliseRoute(t[1 + n..]));
  }

  /** Any other first character is copied; a copied `:` is followed by a
      character that is not a word character, or by nothing. */
  lemma NormaliseCopyStep(t: string)
    requires |t| > 0 && !(t[0] == ':' && WordRun(t, 1) > 0)
    requires NoRouteParameter(NormaliseRoute(t[1..]))
    ensures NoRouteParameter(NormaliseRoute(t))
  {
    var rest := NormaliseRoute(t[1..]);
    var first := [t[0]];
    if |rest| > 0 && t[0] == ':' {
      assert WordRun(t, 1) == 0;
      assert !IsWordChar(t[1]);
      NormaliseHead(t[1..]);
      assert rest[0] == '{' || rest[0] == t[1];
    }
    assert NoRouteParameter(first);
    assert NormaliseRoute(t) == first + rest;
    NoRouteParameterJoin(first, rest);
  }

  /** After rewriting, no `:name` is left. */
  lemma {:induction false} NormaliseRemovesParameters(t: string)
    ensures NoRouteParameter(NormaliseRoute(t))
    decreases |t|
  {
    if |t| > 0 {
      var n := if t[0] == ':' then WordRun(t, 1) else 0;
      if t[0] == ':' && n > 0 {
        NormaliseRemovesParameters(t[1 + n..]);
        NormaliseParameterStep(t, n);
      } else {
        NormaliseRemovesParameters(t[1..]);
        NormaliseCopyStep(t);
      }
    }
  }

  /** A route without `:name` is left as it is. */
  lemma {:induction false} NormaliseFixes(t: string)
    requires NoRouteParameter(t)
    ensures NormaliseRoute(t) == t
    decreases |t|
  {
    if |t| > 0 {
      if t[0] == ':' && |t| > 1 {
        assert !IsWordChar(t[1]);
      }
      assert NoRouteParameter(t[1..]) by {
        forall k | 0 <= k < |t[1..]| - 1 && t[1..][k] == ':' ensures !IsWordChar(t[1..][k + 1]) {
          assert t[k + 1] == ':';
        }
      }
      NormaliseFixes(t[1..]);
      assert t == [t[0]] + t[1..];
    }
  }

  /** Rewriting twice is rewriting once; a Swagger template is unchanged. */
  lemma NormaliseIdempotent(t: string)
    ensures NormaliseRoute(NormaliseRoute(t)) == NormaliseRoute(t)
  {
    NormaliseRemovesParameters(t);
    NormaliseFixes(NormaliseRoute(t));
  }

  /** The Express form of a compiled template: each hole written `:name`
      instead of `{name}`. */
  function ColonForm(toks: seq<Token>): string {
    if |toks| == 0 then ""
    else (if toks[0].Lit? then [toks[0].c] else ":" + toks[0].name) + ColonForm(toks[1..])
  }

  /** A template whose Express form reads back unambiguously: every hole is
      followed by the end or by a character that is not a word character,
      and no literal `:` is followed by a word character. */
  predicate ColonSafe(toks: seq<Token>) {
    WellFormedHoles(toks) &&
    (forall i :: 0 <= i < |toks| && toks[i].Hole? ==>
      i + 1 == |toks| || (toks[i + 1].Lit? && !IsWordChar(toks[i + 1].c))) &&
    (forall i :: 0 <= i < |toks| - 1 && toks[i] == Lit(':') ==>
      !(toks[i + 1].Lit? && IsWordChar(toks[i + 1].c)))
  }

  lemma ColonSafeTail(toks: seq<Token>)
    requires |toks| > 0 && ColonSafe(toks)
    ensures ColonSafe(toks[1..])
  {
    var t := toks[1..];
    assert forall i :: 0 <= i < |t| ==> t[i] == toks[i + 1];
  }

  /** The Express form of a nonempty template starts with its first
      literal, or with `:` for a hole. */
  lemma ColonFormHead(toks: seq<Token>)
    requires |toks| > 0
    ensures |ColonForm(toks)| > 0
    ensures ColonForm(toks)[0] == (if toks[0].Lit? then toks[0].c else ':')
  {
  }

  /** A run of word characters that ends at the end of the text or before
      a character that is not one is what WordRun measures. */
  lemma WordRunExact(t: string, i: nat, n: nat)
    requires i + n <= |t|
    requires forall k :: i <= k < i + n ==> IsWordChar(t[k])
    requires i + n == |t| || !IsWordChar(t[i + n])
    ensures WordRun(t, i) == n
  {
  }

  /** A literal first token is copied by the rewrite. */
  lemma ColonLitStep(toks: seq<Token>)
    requires |toks| > 0 && toks[0].Lit? && ColonSafe(toks)
    requires NormaliseRoute(ColonForm(toks[1..])) == Render(toks[1..])
    ensures NormaliseRoute(ColonForm(toks)) == Render(toks)
  {
    var t := ColonForm(toks);
    var c := toks[0].c;
    assert t == [c] + ColonForm(toks[1..]);
    assert t[1..] == ColonForm(toks[1..]);
    if c == ':' && |t| > 1 {
      ColonFormHead(toks[1..]);
      assert !IsWordChar(t[1]);
      assert WordRun(t, 1) == 0;
    }
    assert NormaliseRoute(t) == [c] + NormaliseRoute(t[1..]);
  }

  /** A hole first is written `:name` and rewritten to `{name}`. */
  lemma ColonHoleStep(toks: seq<Token>)
    requires |toks| > 0 && toks[0].Hole? && ColonSafe(toks)
    requires NormaliseRoute(ColonForm(toks[1..])) == Render(toks[1..])
    ensures NormaliseRoute(ColonForm(toks)) == Render(toks)
  {
    var name := toks[0].name;
    var rest := ColonForm(toks[1..]);
    var t := ColonForm(toks);
    var n := |name|;
    assert t == ":" + name + rest;
    assert forall k :: 1 <= k < 1 + n ==> t[k] == name[k - 1];
    if |toks| > 1 {
      ColonFormHead(toks[1..]);
      assert t[1 + n] == rest[0];
    }
    WordRunExact(t, 1, n);
    assert t[1..1 + n] == name;
    assert t[1 + n..] == rest;
    assert NormaliseRoute(t) == "{" + name + "}" + NormaliseRoute(rest);
  }

  /** Writing the holes of a template as `:name` and rewriting them gives
      the Swagger template back: `/users/:id` is rewritten to `/users/{id}`. */
  lemma {:induction false} ColonFormRewrite(toks: seq<Token>)
    requires ColonSafe(toks)
    ensures NormaliseRoute(ColonForm(toks)) == Render(toks)
    decreases |toks|
  {
    if |toks| > 0 {
      ColonSafeTail(toks);
      ColonFormRewrite(toks[1..]);
      if toks[0].Lit? {
        ColonLitStep(toks);
      } else {
        ColonHoleStep(toks);
      }
    }
  }

  /** The error thrown for an undeclared path or verb. */
  datatype NoEntry = NoEntry(url: string, verb: string)

  function NoEntryMessage(e: NoEntry): string {
    "Their is no swagger entries for the url : " + e.url + "with the HTTP verb : " + e.verb
  }

  /** `getRequiredParameters` over the document's `paths`. */
  function ResolveOperation(paths: seq<(string, seq<(string, Operation)>)>, verb: string, route: string)
    : (r: Result<seq<Parameter>, NoEntry>)
  {
    var url := NormaliseRoute(route);
    var v := LowerCase(verb);
    match Find(paths, url)
    case None => Err(NoEntry(url, v))
    case Some(ops) =>
      match Find(ops, v)
      case None => Err(NoEntry(url, v))
      case Some(op) => Ok(if op.parameters.None? then [] else op.parameters.value)
  }

  lemma LowerCaseIdempotent(s: string)
    ensures LowerCase(LowerCase(s)) == LowerCase(s)
  {
  }

  /** The lookup succeeds exactly when the rewritten path is declared with
      the lower-cased verb; it then gives that operation's parameters, or
      none when the operation has no `parameters` key; otherwise the error
      names the rewritten path and the lower-cased verb. The path and the
      verb are read at their first entries, as a property read finds them. */
  lemma {:induction false} ResolveOperationMeaning(paths: seq<(string, seq<(string, Operation)>)>, verb: string, route: string)
    ensures ResolveOperation(paths, verb, route).Ok? <==>
      exists j, k :: 0 <= j < |paths| && paths[j].0 == NormaliseRoute(route) &&
        FindIndex(paths, NormaliseRoute(route)) == Some(j) &&
        0 <= k < |paths[j].1| && paths[j].1[k].0 == LowerCase(verb)
    ensures ResolveOperation(paths, verb, route).Err? ==>
      ResolveOperation(paths, verb, route).error == NoEntry(NormaliseRoute(route), LowerCase(verb))
    ensures ResolveOperation(paths, verb, route).Ok? ==>
      exists j, k, op: Operation :: 0 <= j < |paths| && paths[j].0 == NormaliseRoute(route) &&
        FindIndex(paths, NormaliseRoute(route)) == Some(j) &&
        0 <= k < |paths[j].1| && paths[j].1[k] == (LowerCase(verb), op) &&
        FindIndex(paths[j].1, LowerCase(verb)) == Some(k) &&
        ResolveOperation(paths, verb, route).value == (if op.parameters.Some? then op.parameters.value else [])
  {
    var url := NormaliseRoute(route);
    var v := LowerCase(verb);
    match FindIndex(paths, url)
    case None =>
    case Some(j) =>
      assert Find(paths, url) == Some(paths[j].1);
      match FindIndex(paths[j].1, v)
      case None =>
      case Some(k) =>
        var op := paths[j].1[k].1;
        assert Find(paths[j].1, v) == Some(op);
        assert paths[j].1[k] == (v, op);
  }

  /** The Express route and the Swagger template of the same path resolve
      to the same operation. */
  lemma ResolveOperationColonForm(paths: seq<(string, seq<(string, Operation)>)>, verb: string, toks: seq<Token>)
    requires ColonSafe(toks)
    ensures ResolveOperation(paths, verb, ColonForm(toks)) == ResolveOperation(paths, verb, Render(toks))
  {
    ColonFormRewrite(toks);
    NormaliseIdempotent(ColonForm(toks));
  }

  /** For instance, `get('/users/:id')` resolves the operation declared
      under `/users/{id}`. */
  lemma UsersIdExample(paths: seq<(string, seq<(string, Operation)>)>, verb: string)
    ensures NormaliseRoute("/users/:id") == "/users/{id}"
    ensures ResolveOperation(paths, verb, "/users/:id") == ResolveOperation(paths, verb, "/users/{id}")
  {
    var toks := Literal("/users/") + [Hole("id")];
    UsersIdTokens(toks);
    ColonFormRewrite(toks);
    ResolveOperationColonForm(paths, verb, toks);
  }

  lemma UsersIdTokens(toks: seq<Token>)
    requires toks == Literal("/users/") + [Hole("id")]
    ensures ColonSafe(toks)
    ensures ColonForm(toks) == "/users/:id"
    ensures Render(toks) == "/users/{id}"
  {
    UsersIdSafe(toks);
    LiteralColonForm("/users/", [Hole("id")]);
    LiteralRender("/users/", [Hole("id")]);
    assert ColonForm([Hole("id")]) == ":id";
    assert Render([Hole("id")]) == "{id}";
  }

  lemma UsersIdSafe(toks: seq<Token>)
    requires toks == Literal("/users/") + [Hole("id")]
    ensures ColonSafe(toks)
  {
    var lit := "/users/";
    assert |toks| == 8 && toks[7] == Hole("id");
    assert forall i :: 0 <= i < 7 ==> toks[i] == Lit(lit[i]) && lit[i] != ':';
  }

  /** Literal characters are written as they are in the Express form. */
  lemma {:induction false} LiteralColonForm(lit: string, rest: seq<Token>)
    ensures ColonForm(Literal(lit) + rest) == lit + ColonForm(rest)
  {
    if |lit| > 0 {
      LiteralColonForm(lit[1..], rest);
      assert Literal(lit) == [Lit(lit[0])] + Literal(lit[1..]);
      assert Literal(lit) + rest == [Lit(lit[0])] + (Literal(lit[1..]) + rest);
      assert ([Lit(lit[0])] + (Literal(lit[1..]) + rest))[1..] == Literal(lit[1..]) + rest;
      assert lit == [lit[0]] + lit[1..];
    } else {
      assert Literal(lit) + rest == rest;
    }
  }

  /** Literal characters are written as they are in the Swagger form. */
  lemma {:induction false} LiteralRender(lit: string, rest: seq<Token>)
    ensures Render(Literal(lit) + rest) == lit + Render(rest)
  {
    if |lit| > 0 {
      LiteralRender(lit[1..], rest);
      assert Literal(lit) == [Lit(lit[0])] + Literal(lit[1..]);
      assert Literal(lit) + rest == [Lit(lit[0])] + (Literal(lit[1..]) + rest);
      RenderCons(Lit(lit[0]), Literal(lit[1..]) + rest);
      assert lit == [lit[0]] + lit[1..];
    } else {
      assert Literal(lit) + rest == rest;
    }
  }

  lemma ResolveOperationCanonical(paths: seq<(string, seq<(string, Operation)>)>, verb: string, route: string)
    ensures ResolveOperation(paths, verb, route) ==
            ResolveOperation(paths, LowerCase(verb), NormaliseRoute(route))
  {
    NormaliseIdempotent(route);
    LowerCaseIdempotent(verb);
  }
}

=== FILE: path_template.dfy ===
/** Path templates: compiling `/users/{id}` into a pattern whose holes
    match `\w+`, matching a request URL against `basePath + pattern +
    /?(\?[^/]+)?$` (flags g, m, i, not anchored at the start), and reading
    the first capture group the way `getPathParametersFromUrl` does. */
module PathTemplate {
  import opened Common
  import opened Text

  /** A compiled pattern is a sequence of literal characters and holes;
      a hole is the `(\w+)` that replaced `{name}`. */
  datatype Token = Lit(c: char) | Hole(name: string)

  /** One entry of the constructor's `_parsingParameters`. */
  datatype Route = Route(pattern: seq<Token>, variables: seq<string>, swaggerPath: string)

  predicate WellFormedHoles(toks: seq<Token>) {
    forall k :: 0 <= k < |toks| && toks[k].Hole? ==> |toks[k].name| > 0 && AllWordChars(toks[k].name)
  }

  /** `url.replace(/{(\w+)}/gi, …)`: scanning left to right, a `{`, a
      maximal run of word characters and a `}` become a hole; every other
      character stays literal. */
  function Compile(t: string): (toks: seq<Token>)
    ensures WellFormedHoles(toks)
  {
    if |t| == 0 then []
    else
      var n := if t[0] == '{' then WordRun(t, 1) else 0;
      if t[0] == '{' && n > 0 && 1 + n < |t| && t[1 + n] == '}' then
        [Hole(t[1..1 + n])] + Compile(t[2 + n..])
      else [Lit(t[0])] + Compile(t[1..])
  }

  /** The template text a pattern was compiled from. */
  function Render(toks: seq<Token>): string {
    if |toks| == 0 then ""
    else match toks[0]
      case Lit(c) => [c] + Render(toks[1..])
      case Hole(name) => "{" + name + "}" + Render(toks[1..])
  }

  /** The variable names `variableNames` collects, in order. */
  function Variables(toks: seq<Token>): seq<string> {
    if |toks| == 0 then []
    else match toks[0]
      case Lit(_) => Variables(toks[1..])
      case Hole(name) => [name] + Variables(toks[1..])
  }

  function CompileRoute(url: string): (r: Route)
    ensures r.swaggerPath == url && r.pattern == Compile(url) && r.variables == Variables(r.pattern)
  {
    var toks := Compile(url);
    Route(toks, Variables(toks), url)
  }

  function Literal(s: string): (toks: seq<Token>)
    ensures |toks| == |s| && forall k :: 0 <= k < |s| ==> toks[k] == Lit(s[k])
  {
    if |s| == 0 then [] else [Lit(s[0])] + Literal(s[1..])
  }

  /** Compiling loses nothing: rendering the holes back as `{name}` gives
      the template. */
  lemma {:induction false} CompileRender(t: string)
    ensures Render(Compile(t)) == t
    decreases |t|
  {
    if |t| > 0 {
      var n := if t[0] == '{' then WordRun(t, 1) else 0;
      if t[0] == '{' && n > 0 && 1 + n < |t| && t[1 + n] == '}' {
        CompileRender(t[2 + n..]);
        CompileRenderHole(t, n);
      } else {
        CompileRender(t[1..]);
        CompileRenderLit(t);
      }
    }
  }

  lemma CompileRenderHole(t: string, n: nat)
    requires |t| > 0 && t[0] == '{' && n == WordRun(t, 1) && n > 0 && 1 + n < |t| && t[1 + n] == '}'
    requires Render(Compile(t[2 + n..])) == t[2 + n..]
    ensures Render(Compile(t)) == t
  {
    var w := t[1..1 + n];
    var rest := Compile(t[2 + n..]);
    assert Compile(t) == [Hole(w)] + rest;
    RenderCons(Hole(w), rest);
    BraceSplit(t, 1 + n);
  }

  lemma BraceSplit(t: string, m: nat)
    requires 0 < m < |t| && t[0] == '{' && t[m] == '}'
    ensures t == "{" + t[1..m] + "}" + t[m + 1..]
  {
    var u := "{" + t[1..m] + "}" + t[m + 1..];
    assert |u| == |t|;
    forall i | 0 <= i < |t| ensures u[i] == t[i] {
      if 0 < i < m { assert u[i] == t[1..m][i - 1]; }
      else if i > m { assert u[i] == t[m + 1..][i - m - 1]; }
    }
  }

  lemma CompileRenderLit(t: string)
    requires |t| > 0
    requires !(t[0] == '{' && WordRun(t, 1) > 0 && 1 + WordRun(t, 1) < |t| && t[1 + WordRun(t, 1)] == '}')
    requires Render(Compile(t[1..])) == t[1..]
    ensures Render(Compile(t)) == t
  {
    var rest := Compile(t[1..]);
    assert Compile(t) == [Lit(t[0])] + rest;
    RenderCons(Lit(t[0]), rest);
    assert t == [t[0]] + t[1..];
  }

  lemma RenderCons(tok: Token, rest: seq<Token>)
    ensures Render([tok] + rest) == (if tok.Lit? then [tok.c] else "{" + tok.name + "}") + Render(rest)
  {
    assert ([tok] + rest)[0] == tok;
    assert ([tok] + rest)[1..] == rest;
  }

  /** A `{`, a non-empty run of word characters and a `}` become a hole
      named by that run, and its name is the next variable. */
  lemma CompileBraceHole(w: string, rest: string)
    requires |w| > 0 && AllWordChars(w)
    ensures Compile("{" + w + "}" + rest) == [Hole(w)] + Compile(rest)
    ensures Variables(Compile("{" + w + "}" + rest)) == [w] + Variables(Compile(rest))
  {
    var t := "{" + w + "}" + rest;
    BracedShape(w, rest);
    assert Compile(t) == [Hole(w)] + Compile(rest);
    var toks := [Hole(w)] + Compile(rest);
    assert toks[0] == Hole(w) && toks[1..] == Compile(rest);
  }

  lemma BracedShape(w: string, rest: string)
    requires |w| > 0 && AllWordChars(w)
    ensures var t := "{" + w + "}" + rest;
      |t| > 1 + |w| && t[0] == '{' && WordRun(t, 1) == |w| && t[1 + |w|] == '}' &&
      t[1..1 + |w|] == w && t[2 + |w|..] == rest
  {
    var t := "{" + w + "}" + rest;
    forall k | 0 <= k < |w| ensures t[1 + k] == w[k] && IsWordChar(t[1 + k]) { }
    assert t[1 + |w|] == '}';
    assert WordRun(t, 1) == |w|;
    assert t[1..1 + |w|] == w;
    assert t[2 + |w|..] == rest;
  }

  /** A first character other than `{` stays literal. */
  lemma CompileOtherChar(c: char, rest: string)
    requires c != '{'
    ensures Compile([c] + rest) == [Lit(c)] + Compile(rest)
  {
    assert ([c] + rest)[1..] == rest;
  }

  /** A `{` that does not open `{name}` stays literal: the run of word
      characters after it (taken whole) is empty or is not followed by
      `}`, and scanning resumes right after the `{`. */
  lemma CompileUnclosedBrace(w: string, rest: string)
    requires AllWordChars(w) && (|rest| == 0 || !IsWordChar(rest[0]))
    requires |w| == 0 || |rest| == 0 || rest[0] != '}'
    ensures Compile("{" + w + rest) == [Lit('{')] + Compile(w + rest)
  {
    UnclosedShape(w, rest);
  }

  lemma UnclosedShape(w: string, rest: string)
    requires AllWordChars(w) && (|rest| == 0 || !IsWordChar(rest[0]))
    requires |w| == 0 || |rest| == 0 || rest[0] != '}'
    ensures var t := "{" + w + rest;
      |t| > 0 && t[0] == '{' && t[1..] == w + rest &&
      !(WordRun(t, 1) > 0 && 1 + WordRun(t, 1) < |t| && t[1 + WordRun(t, 1)] == '}')
  {
    var t := "{" + w + rest;
    forall k | 0 <= k < |w| ensures t[1 + k] == w[k] && IsWordChar(t[1 + k]) { }
    assert |rest| > 0 ==> t[1 + |w|] == rest[0];
    assert WordRun(t, 1) == |w|;
    assert t[1..] == w + rest;
  }

  /** For instance, the variables of `{x}/{y}` are `x`, then `y`. */
  lemma TwoHolesInOrder()
    ensures Variables(Compile("{x}/{y}")) == ["x", "y"]
  {
    var tail := "/{y}";
    CompileBraceHole("y", "");
    assert "{y}" == "{" + "y" + "}" + "";
    assert tail == ['/'] + "{y}";
    CompileOtherChar('/', "{y}");
    var toks := [Lit('/')] + Compile("{y}");
    assert toks[0] == Lit('/') && toks[1..] == Compile("{y}");
    assert Variables(Compile(tail)) == ["y"];
    assert "{x}/{y}" == "{" + "x" + "}" + tail;
    CompileBraceHole("x", tail);
  }

  lemma {:induction false} LiteralHasNoVariables(s: string)
    ensures Variables(Literal(s)) == []
    decreases |s|
  {
    if |s| > 0 {
      LiteralHasNoVariables(s[1..]);
      assert Literal(s)[1..] == Literal(s[1..]);
    }
  }

  /** A template without braces compiles to itself, literally. */
  lemma {:induction false} CompileWithoutBraces(t: string)
    requires '{' !in t
    ensures Compile(t) == Literal(t)
    decreases |t|
  {
    if |t| > 0 {
      CompileWithoutBraces(t[1..]);
    }
  }

  // ---------------------------------------------------------------------
  // Matching

  /** Character comparison, without case under the `i` flag. */
  predicate CharMatches(x: char, c: char, fold: bool) {
    if fold then SameIgnoringCase(x, c) else x == c
  }

  /** `$` under the `m` flag: end of input or before a line terminator. */
  predicate LineEnd(s: string, j: nat) {
    j == |s| || (j < |s| && s[j] in {'\n', '\r', '\U{2028}', '\U{2029}'})
  }

  /** `(\?[^/]+)?$` at position j. */
  predicate QueryThenEnd(s: string, j: nat) {
    LineEnd(s, j) ||
    (j < |s| && s[j] == '?' &&
     exists k :: j + 1 < k <= |s| && '/' !in s[j + 1..k] && LineEnd(s, k))
  }

  /** `/?(\?[^/]+)?$` at position j. */
  predicate TailMatches(s: string, j: nat) {
    QueryThenEnd(s, j) || (j < |s| && s[j] == '/' && QueryThenEnd(s, j + 1))
  }

  /** What a pattern matches, word by word: the reference the matcher
      below is proved against. */
  ghost predicate Spells(toks: seq<Token>, w: string, fold: bool)
    decreases |toks|
  {
    if |toks| == 0 then |w| == 0
    else match toks[0]
      case Lit(c) => |w| > 0 && CharMatches(w[0], c, fold) && Spells(toks[1..], w[1..], fold)
      case Hole(_) =>
        exists k :: 1 <= k <= |w| && AllWordChars(w[..k]) && Spells(toks[1..], w[k..], fold)
  }

  /** What may follow a match: the tail of the full expression, or
      anything for the bare template expression. */
  predicate EndOk(s: string, j: nat, anchored: bool) {
    !anchored || TailMatches(s, j)
  }

  /** The matcher: does `toks` (then the tail when `anchored`) match `s`
      from position i on? */
  function MatchFrom(toks: seq<Token>, s: string, i: nat, fold: bool, anchored: bool): bool
    requires i <= |s|
    decreases |toks|, |s| - i + 1
  {
    if |toks| == 0 then EndOk(s, i, anchored)
    else match toks[0]
      case Lit(c) => i < |s| && CharMatches(s[i], c, fold) && MatchFrom(toks[1..], s, i + 1, fold, anchored)
      case Hole(_) => i < |s| && IsWordChar(s[i]) && MatchHole(toks[1..], s, i + 1, fold, anchored)
  }

  /** A hole has consumed word characters up to k (exclusive): it either
      takes one more or hands over to the rest of the pattern. */
  function MatchHole(rest: seq<Token>, s: string, k: nat, fold: bool, anchored: bool): bool
    requires k <= |s|
    decreases |rest| + 1, |s| - k
  {
    (k < |s| && IsWordChar(s[k]) && MatchHole(rest, s, k + 1, fold, anchored)) ||
    MatchFrom(rest, s, k, fold, anchored)
  }

  /** s[k..m] is a run of word characters. */
  predicate WordsBetween(s: string, k: nat, m: nat) {
    k <= m <= |s| && forall q :: k <= q < m ==> IsWordChar(s[q])
  }

  /** The hole extends over word characters from k to some m, after which
      the rest of the pattern matches. */
  lemma {:induction false} MatchHoleCorrect(rest: seq<Token>, s: string, k: nat, fold: bool, anchored: bool)
    requires k <= |s|
    ensures MatchHole(rest, s, k, fold, anchored) <==>
      exists m: nat :: WordsBetween(s, k, m) && MatchFrom(rest, s, m, fold, anchored)
    decreases |s| - k
  {
    if MatchFrom(rest, s, k, fold, anchored) {
      assert MatchHole(rest, s, k, fold, anchored);
      assert WordsBetween(s, k, k) && MatchFrom(rest, s, k, fold, anchored);
    }
    if k < |s| {
      MatchHoleCorrect(rest, s, k + 1, fold, anchored);
      if exists m: nat :: WordsBetween(s, k, m) && MatchFrom(rest, s, m, fold, anchored) {
        var m: nat :| WordsBetween(s, k, m) && MatchFrom(rest, s, m, fold, anchored);
        if m > k {
          assert IsWordChar(s[k]);
          assert WordsBetween(s, k + 1, m) && MatchFrom(rest, s, m, fold, anchored);
        }
      }
      if MatchHole(rest, s, k + 1, fold, anchored) && IsWordChar(s[k]) {
        var m: nat :| WordsBetween(s, k + 1, m) && MatchFrom(rest, s, m, fold, anchored);
        assert WordsBetween(s, k, m) && MatchFrom(rest, s, m, fold, anchored);
      }
    } else if exists m: nat :: WordsBetween(s, k, m) && MatchFrom(rest, s, m, fold, anchored) {
      var m: nat :| WordsBetween(s, k, m) && MatchFrom(rest, s, m, fold, anchored);
      assert m == k;
      assert MatchFrom(rest, s, k, fold, anchored);
      assert MatchHole(rest, s, k, fold, anchored);
    }
  }

  /** Some piece s[i..j] is spelled by the pattern and an allowed end
      follows it. */
  ghost predicate MatchesFrom(toks: seq<Token>, s: string, i: nat, fold: bool, anchored: bool)
    requires i <= |s|
  {
    exists j :: i <= j <= |s| && Spells(toks, s[i..j], fold) && EndOk(s, j, anchored)
  }

  /** The matcher agrees with the reference. */
  lemma {:induction false} MatchFromCorrect(toks: seq<Token>, s: string, i: nat, fold: bool, anchored: bool)
    requires i <= |s|
    ensures MatchFrom(toks, s, i, fold, anchored) <==> MatchesFrom(toks, s, i, fold, anchored)
    decreases |toks|, |s| - i + 1, 1
  {
    if |toks| == 0 {
      if MatchFrom(toks, s, i, fold, anchored) {
        assert Spells(toks, s[i..i], fold) && EndOk(s, i, anchored);
      }
    } else if i == |s| {
      assert forall j :: i <= j <= |s| ==> s[i..j] == [];
    } else if toks[0].Lit? {
      MatchLitCorrect(toks, s, i, fold, anchored);
    } else {
      MatchHoleStart(toks, s, i, fold, anchored);
      MatchHoleEnd(toks, s, i, fold, anchored);
    }
  }

  lemma {:induction false} MatchLitCorrect(toks: seq<Token>, s: string, i: nat, fold: bool, anchored: bool)
    requires i < |s| && |toks| > 0 && toks[0].Lit?
    ensures MatchFrom(toks, s, i, fold, anchored) <==> MatchesFrom(toks, s, i, fold, anchored)
    decreases |toks|, |s| - i + 1, 0
  {
    var rest := toks[1..];
    MatchFromCorrect(rest, s, i + 1, fold, anchored);
    if MatchFrom(toks, s, i, fold, anchored) {
      var j :| i + 1 <= j <= |s| && Spells(rest, s[i + 1..j], fold) && EndOk(s, j, anchored);
      assert s[i..j][1..] == s[i + 1..j];
      assert Spells(toks, s[i..j], fold);
    }
    if MatchesFrom(toks, s, i, fold, anchored) {
      var j :| i <= j <= |s| && Spells(toks, s[i..j], fold) && EndOk(s, j, anchored);
      assert s[i..j][1..] == s[i + 1..j];
      assert i + 1 <= j <= |s| && Spells(rest, s[i + 1..j], fold) && EndOk(s, j, anchored);
    }
  }

  lemma {:induction false} MatchHoleStart(toks: seq<Token>, s: string, i: nat, fold: bool, anchored: bool)
    requires i < |s| && |toks| > 0 && toks[0].Hole?
    ensures MatchFrom(toks, s, i, fold, anchored) ==> MatchesFrom(toks, s, i, fold, anchored)
    decreases |toks|, |s| - i + 1, 0
  {
    var rest := toks[1..];
    if MatchFrom(toks, s, i, fold, anchored) {
      MatchHoleCorrect(rest, s, i + 1, fold, anchored);
      var m: nat :| WordsBetween(s, i + 1, m) && MatchFrom(rest, s, m, fold, anchored);
      MatchFromCorrect(rest, s, m, fold, anchored);
      var j :| m <= j <= |s| && Spells(rest, s[m..j], fold) && EndOk(s, j, anchored);
      var w := s[i..j];
      assert w[m - i..] == s[m..j];
      assert AllWordChars(w[..m - i]) by {
        forall q | 0 <= q < m - i ensures IsWordChar(w[q]) {
          assert w[q] == s[i + q];
        }
      }
      assert Spells(toks, w, fold);
    }
  }

  lemma {:induction false} MatchHoleEnd(toks: seq<Token>, s: string, i: nat, fold: bool, anchored: bool)
    requires i < |s| && |toks| > 0 && toks[0].Hole?
    ensures MatchesFrom(toks, s, i, fold, anchored) ==> MatchFrom(toks, s, i, fold, anchored)
    decreases |toks|, |s| - i + 1, 0
  {
    var rest := toks[1..];
    if MatchesFrom(toks, s, i, fold, anchored) {
      var j :| i <= j <= |s| && Spells(toks, s[i..j], fold) && EndOk(s, j, anchored);
      var w := s[i..j];
      var k :| 1 <= k <= |w| && AllWordChars(w[..k]) && Spells(rest, w[k..], fold);
      var m := i + k;
      assert w[k..] == s[m..j];
      assert WordsBetween(s, i, m) by {
        forall q | i <= q < m ensures IsWordChar(s[q]) {
          assert s[q] == w[..k][q - i];
        }
      }
      MatchFromCorrect(rest, s, m, fold, anchored);
      MatchHoleCorrect(rest, s, i + 1, fold, anchored);
      assert WordsBetween(s, i + 1, m) && MatchFrom(rest, s, m, fold, anchored);
    }
  }

  /** The first position from i on where the pattern matches: what a
      search for the expression, not anchored at the start, finds. */
  function FirstMatchStart(toks: seq<Token>, s: string, i: nat, fold: bool, anchored: bool): (r: Option<nat>)
    requires i <= |s|
    ensures r.Some? ==> i <= r.value <= |s| && MatchFrom(toks, s, r.value, fold, anchored)
    ensures r.Some? ==> forall q :: i <= q < r.value ==> !MatchFrom(toks, s, q, fold, anchored)
    ensures r.None? ==> forall q :: i <= q <= |s| ==> !MatchFrom(toks, s, q, fold, anchored)
    decreases |s| - i
  {
    if MatchFrom(toks, s, i, fold, anchored) then Some(i)
    else if i == |s| then None
    else FirstMatchStart(toks, s, i + 1, fold, anchored)
  }

  /** The expression `basePath + pattern + '/?(\?[^/]+)?$'` with flags
      `gmi` matches somewhere in the URL. */
  predicate UrlMatches(basePath: string, route: Route, url: string) {
    FirstMatchStart(Literal(basePath) + route.pattern, url, 0, true, true).Some?
  }

  /** The greedy extent of a hole that has consumed up to k: the longest
      run of word characters after which the rest still matches. */
  function GreedyEnd(rest: seq<Token>, s: string, k: nat, fold: bool, anchored: bool): (m: nat)
    requires k <= |s| && MatchHole(rest, s, k, fold, anchored)
    ensures WordsBetween(s, k, m)
    ensures MatchFrom(rest, s, m, fold, anchored)
    ensures forall m': nat :: m < m' && WordsBetween(s, k, m') ==>
              !MatchFrom(rest, s, m', fold, anchored)
    decreases |s| - k
  {
    if k < |s| && IsWordChar(s[k]) && MatchHole(rest, s, k + 1, fold, anchored) then
      GreedyEnd(rest, s, k + 1, fold, anchored)
    else
      if k < |s| then
        MatchHoleCorrect(rest, s, k + 1, fold, anchored);
        k
      else k
  }

  /** Capture group 1 of a match starting at i: the text of the first hole,
      taken greedily. */
  function CaptureAt(toks: seq<Token>, s: string, i: nat, fold: bool, anchored: bool): (c: string)
    requires i <= |s| && MatchFrom(toks, s, i, fold, anchored) && Variables(toks) != []
    ensures |c| > 0 && AllWordChars(c)
    decreases |toks|
  {
    match toks[0]
    case Lit(_) => CaptureAt(toks[1..], s, i + 1, fold, anchored)
    case Hole(_) =>
      var m := GreedyEnd(toks[1..], s, i + 1, fold, anchored);
      s[i..m]
  }

  /** `url.match(route.regexp)[1]`: the template expression alone (no base
      path, case-sensitive, no end anchor), first match; None when
      `match` returns null. */
  function TemplateCapture(route: Route, url: string): (r: Option<string>)
    requires Variables(route.pattern) != []
    ensures r.Some? ==> |r.value| > 0 && AllWordChars(r.value)
    ensures r.Some? <==> exists q: nat :: q <= |url| && MatchFrom(route.pattern, url, q, false, false)
  {
    var start := FirstMatchStart(route.pattern, url, 0, false, false);
    if start.None? then None
    else
      var q: nat := start.value;
      assert q <= |url| && MatchFrom(route.pattern, url, q, false, false);
      assert exists q: nat :: q <= |url| && MatchFrom(route.pattern, url, q, false, false);
      Some(CaptureAt(route.pattern, url, start.value, false, false))
  }

  // ---------------------------------------------------------------------
  // Path parameters

  /** A route as the constructor builds it: its variables are the holes
      of its pattern, in order. */
  predicate ValidRoute(route: Route) {
    route.variables == Variables(route.pattern)
  }

  /** The object left by assigning `c` to each of `vars` in turn. */
  function PutAll(vars: seq<string>, c: string): (params: seq<(string, string)>)
  {
    if |vars| == 0 then [] else Put(PutAll(vars[..|vars| - 1], c), vars[|vars| - 1], c)
  }

  /** Assigning one value to a list of names gives an object whose keys are
      exactly those names, once each, all holding that value. */
  lemma {:induction false} PutAllContents(vars: seq<string>, c: string)
    ensures DistinctKeys(PutAll(vars, c))
    ensures forall k :: Find(PutAll(vars, c), k) == (if k in vars then Some(c) else None)
    decreases |vars|
  {
    if |vars| > 0 {
      var init := vars[..|vars| - 1];
      var last := vars[|vars| - 1];
      var prev := PutAll(init, c);
      PutAllContents(init, c);
      PutMeaning(prev, last, c);
      assert PutAll(vars, c) == Put(prev, last, c);
      assert vars == init + [last];
      forall k ensures Find(PutAll(vars, c), k) == (if k in vars then Some(c) else None) {
        if k != last {
          assert k in vars <==> k in init;
        }
      }
    }
  }

  /** What `getPathParametersFromUrl` returns: every variable of the route
      set to capture group 1 of the bare template expression; Err when the
      expression does not match and there is a variable to read it for
      (`null[1]` throws). */
  function PathParameters(route: Route, url: string): (r: Result<seq<(string, string)>, ()>)
    requires ValidRoute(route)
  {
    if route.variables == [] then Ok([])
    else match TemplateCapture(route, url)
      case None => Err(())
      case Some(c) => Ok(PutAll(route.variables, c))
  }

  /** The object has one key per variable name, each holding the same first
      capture; the call throws exactly when there is a variable and the
      template expression matches nowhere in the URL. */
  lemma {:induction false} PathParametersContents(route: Route, url: string)
    requires ValidRoute(route)
    ensures PathParameters(route, url).Err? <==>
      route.variables != [] && !exists q: nat :: q <= |url| && MatchFrom(route.pattern, url, q, false, false)
    ensures PathParameters(route, url).Ok? ==> DistinctKeys(PathParameters(route, url).value)
    ensures PathParameters(route, url).Ok? ==> forall k ::
      Find(PathParameters(route, url).value, k) == (if k in route.variables then TemplateCapture(route, url) else None)
  {
    if route.variables != [] {
      var captured := TemplateCapture(route, url);
      if captured.Some? {
        var start := FirstMatchStart(route.pattern, url, 0, false, false);
        var q: nat := start.value;
        assert q <= |url| && MatchFrom(route.pattern, url, q, false, false);
        assert exists q: nat :: q <= |url| && MatchFrom(route.pattern, url, q, false, false);
        assert PathParameters(route, url).Ok?;
        PutAllContents(route.variables, captured.value);
      }
    }
  }

  /** `getPathParametersFromUrl`: one property assignment per variable,
      each reading group 1 of a fresh match. */
  method GetPathParametersFromUrl(url: string, route: Route) returns (r: Result<seq<(string, string)>, ()>)
    requires ValidRoute(route)
    ensures r == PathParameters(route, url)
  {
    var params: seq<(string, string)> := [];
    var i := 0;
    while i < |route.variables|
      invariant 0 <= i <= |route.variables|
      invariant i == 0 ==> params == []
      invariant i > 0 ==> TemplateCapture(route, url).Some? &&
                           params == PutAll(route.variables[..i], TemplateCapture(route, url).value)
    {
      var matched := TemplateCapture(route, url);
      if matched.None? {
        return Err(());
      }
      assert route.variables[..i + 1][..i] == route.variables[..i];
      assert route.variables[..i + 1][i] == route.variables[i];
      assert PutAll(route.variables[..i + 1], matched.value) ==
             Put(PutAll(route.variables[..i], matched.value), route.variables[i], matched.value);
      params := Put(params, route.variables[i], matched.value);
      i := i + 1;
    }
    assert route.variables[..i] == route.variables;
    return Ok(params);
  }

  // ---------------------------------------------------------------------
  // Instances of a template

  /** Values that a hole can take: non-empty runs of word characters. */
  predicate HoleValues(vals: seq<string>) {
    forall k :: 0 <= k < |vals| ==> |vals[k]| > 0 && AllWordChars(vals[k])
  }

  /** The URL path obtained by writing `vals` into the holes, in order. */
  function Fill(toks: seq<Token>, vals: seq<string>): string
    requires |vals| == |Variables(toks)|
  {
    if |toks| == 0 then ""
    else match toks[0]
      case Lit(c) => [c] + Fill(toks[1..], vals)
      case Hole(_) => vals[0] + Fill(toks[1..], vals[1..])
  }

  lemma {:induction false} SpellsFill(toks: seq<Token>, vals: seq<string>, fold: bool)
    requires |vals| == |Variables(toks)| && HoleValues(vals)
    ensures Spells(toks, Fill(toks, vals), fold)
    decreases |toks|
  {
    if |toks| > 0 {
      var w := Fill(toks, vals);
      match toks[0]
      case Lit(c) =>
        SpellsFill(toks[1..], vals, fold);
        assert w[1..] == Fill(toks[1..], vals);
      case Hole(_) =>
        SpellsFill(toks[1..], vals[1..], fold);
        var k := |vals[0]|;
        assert w[..k] == vals[0];
        assert w[k..] == Fill(toks[1..], vals[1..]);
    }
  }

  /** The filled template matches where it is written, up to the end of the
      URL. */
  lemma {:induction false} FillMatchesAt(toks: seq<Token>, vals: seq<string>, s: string, i: nat, fold: bool, anchored: bool)
    requires |vals| == |Variables(toks)| && HoleValues(vals)
    requires i <= |s| && s[i..] == Fill(toks, vals)
    ensures MatchFrom(toks, s, i, fold, anchored)
  {
    SpellsFill(toks, vals, fold);
    assert s[i..|s|] == s[i..];
    assert LineEnd(s, |s|);
    MatchFromCorrect(toks, s, i, fold, anchored);
  }

  lemma {:induction false} LiteralVariables(b: string, toks: seq<Token>)
    ensures Variables(Literal(b) + toks) == Variables(toks)
    decreases |b|
  {
    if |b| > 0 {
      LiteralVariables(b[1..], toks);
      var all := Literal(b) + toks;
      assert all[0] == Lit(b[0]);
      assert all[1..] == Literal(b[1..]) + toks;
    } else {
      assert Literal(b) + toks == toks;
    }
  }

  lemma {:induction false} LiteralConcat(b: string, toks: seq<Token>, vals: seq<string>)
    requires |vals| == |Variables(toks)|
    ensures Variables(Literal(b) + toks) == Variables(toks)
    ensures Fill(Literal(b) + toks, vals) == b + Fill(toks, vals)
    decreases |b|
  {
    LiteralVariables(b, toks);
    if |b| > 0 {
      LiteralConcat(b[1..], toks, vals);
      var all := Literal(b) + toks;
      assert all[0] == Lit(b[0]);
      assert all[1..] == Literal(b[1..]) + toks;
      assert Fill(all, vals) == [b[0]] + Fill(all[1..], vals);
      assert b == [b[0]] + b[1..];
    } else {
      assert Literal(b) + toks == toks;
    }
  }

  /** A request for the base path followed by an instance of the template
      is recognised by the route's expression. */
  lemma InstanceRoutes(basePath: string, route: Route, vals: seq<string>)
    requires |vals| == |Variables(route.pattern)| && HoleValues(vals)
    ensures UrlMatches(basePath, route, basePath + Fill(route.pattern, vals))
  {
    var url := basePath + Fill(route.pattern, vals);
    LiteralConcat(basePath, route.pattern, vals);
    FillMatchesAt(Literal(basePath) + route.pattern, vals, url, 0, true, true);
  }

  /** The first hole is followed by the end of the template or by a literal
      that is not a word character, so its value cannot run on. */
  predicate FirstHoleBounded(toks: seq<Token>) {
    if |toks| == 0 then true
    else match toks[0]
      case Lit(_) => FirstHoleBounded(toks[1..])
      case Hole(_) => |toks| == 1 || (toks[1].Lit? && !IsWordChar(toks[1].c))
  }

  lemma {:induction false} CaptureFill(toks: seq<Token>, vals: seq<string>, s: string, i: nat, fold: bool, anchored: bool)
    requires |vals| == |Variables(toks)| && HoleValues(vals) && |vals| > 0
    requires FirstHoleBounded(toks)
    requires i <= |s| && s[i..] == Fill(toks, vals) && MatchFrom(toks, s, i, fold, anchored)
    ensures CaptureAt(toks, s, i, fold, anchored) == vals[0]
    decreases |toks|
  {
    match toks[0]
    case Lit(c) =>
      assert s[i + 1..] == s[i..][1..];
      CaptureFill(toks[1..], vals, s, i + 1, fold, anchored);
    case Hole(_) =>
      var rest := toks[1..];
      var e := i + |vals[0]|;
      assert s[i..][..|vals[0]|] == vals[0];
      assert s[e..] == Fill(rest, vals[1..]);
      FillMatchesAt(rest, vals[1..], s, e, fold, anchored);
      assert WordsBetween(s, i + 1, e) by {
        forall q | i + 1 <= q < e ensures IsWordChar(s[q]) {
          assert s[q] == vals[0][q - i];
        }
      }
      assert e == |s| || !IsWordChar(s[e]) by {
        if |rest| > 0 {
          assert s[e] == Fill(rest, vals[1..])[0];
        }
      }
      var m := GreedyEnd(rest, s, i + 1, fold, anchored);
      assert m == e;
      assert s[i..m] == vals[0];
  }

  /** A URL that is exactly an instance of the template (no base path)
      reads back the first value for every variable. */
  lemma InstanceCapture(route: Route, vals: seq<string>)
    requires |vals| == |Variables(route.pattern)| && HoleValues(vals) && |vals| > 0
    requires FirstHoleBounded(route.pattern)
    ensures TemplateCapture(route, Fill(route.pattern, vals)) == Some(vals[0])
  {
    var url := Fill(route.pattern, vals);
    FillMatchesAt(route.pattern, vals, url, 0, false, false);
    CaptureFill(route.pattern, vals, url, 0, false, false);
  }

  lemma CompileOneHole()
    ensures CompileRoute("/{x}") == Route([Lit('/'), Hole("x")], ["x"], "/{x}")
  {
    assert WordRun("{x}", 1) == 1;
    assert "{x}"[1..2] == "x";
    assert "{x}"[3..] == "";
    assert Compile("{x}") == [Hole("x")];
    assert "/{x}"[1..] == "{x}";
  }

  lemma GreedyOneHole()
    ensures MatchFrom([Lit('/'), Hole("x")], "/v1/abc", 0, false, false)
    ensures CaptureAt([Lit('/'), Hole("x")], "/v1/abc", 0, false, false) == "v1"
  {
    var url := "/v1/abc";
    assert MatchFrom([], url, 2, false, false);
    assert MatchHole([], url, 2, false, false);
    assert [Lit('/'), Hole("x")][1..] == [Hole("x")];
    assert [Hole("x")][1..] == [];
    assert MatchFrom([Hole("x")], url, 1, false, false);
    assert !IsWordChar(url[3]);
    assert GreedyEnd([], url, 3, false, false) == 3;
    assert GreedyEnd([], url, 2, false, false) == 3;
    assert url[1..3] == "v1";
  }

  /** The value is read with the template expression alone: behind the base
      path `/v1`, the template `/{x}` already matches at `/v1`, so a request
      for `/v1/abc` is routed to the template and reads `x` as `v1`. */
  lemma CaptureIgnoresBasePath()
    ensures UrlMatches("/v1", CompileRoute("/{x}"), "/v1/abc")
    ensures PathParameters(CompileRoute("/{x}"), "/v1/abc") == Ok([("x", "v1")])
  {
    CompileOneHole();
    var route := CompileRoute("/{x}");
    InstanceRoutes("/v1", route, ["abc"]);
    assert Fill(route.pattern, ["abc"]) == "/abc";
    assert "/v1" + "/abc" == "/v1/abc";
    GreedyOneHole();
    assert FirstMatchStart(route.pattern, "/v1/abc", 0, false, false) == Some(0);
    assert TemplateCapture(route, "/v1/abc") == Some("v1");
    assert ["x"][..0] == [];
    assert PutAll(["x"], "v1") == Put([], "x", "v1") == [("x", "v1")];
  }
}

=== FILE: scalar.dfy ===
/** The scalar type checker: a value taken from the query string, the path
    or a form field is a string, checked against the `type` (and, for
    `number`, the `format`) of its parameter. */
module Scalar {
  import opened Common
  import opened Text
  import opened JsValues
  import opened Swagger

  /** Length of the run of decimal digits of `s` starting at `i`. */
  function DigitRun(s: string, i: nat): (n: nat)
    requires i <= |s|
    ensures i + n <= |s|
    ensures forall k :: i <= k < i + n ==> IsDigit(s[k])
    ensures i + n == |s| || !IsDigit(s[i + n])
    decreases |s| - i
  {
    if i < |s| && IsDigit(s[i]) then 1 + DigitRun(s, i + 1) else 0
  }

  /** `s` without its leading `-` or `+`, if any. */
  function Unsigned(s: string): (t: string)
    ensures |s| > 0 && (s[0] == '-' || s[0] == '+') ==> t == s[1..]
    ensures !(|s| > 0 && (s[0] == '-' || s[0] == '+')) ==> t == s
  {
    if |s| > 0 && (s[0] == '-' || s[0] == '+') then s[1..] else s
  }

  /** The pattern `^(\-|\+)?([0-9]+|Infinity)$` of `filterInt`. */
  predicate IntegerSyntax(s: string) {
    var t := Unsigned(s);
    t == "Infinity" || (|t| > 0 && DigitRun(t, 0) == |t|)
  }

  /** The pattern `^(\-|\+)?([0-9]+(\.[0-9]+)?|Infinity)$` of `filterFloat`. */
  predicate FloatSyntax(s: string) {
    var t := Unsigned(s);
    var k := DigitRun(t, 0);
    t == "Infinity" ||
    (k > 0 && (k == |t| || (t[k] == '.' && k + 1 < |t| && DigitRun(t, k + 1) == |t| - k - 1)))
  }

  /** `simpleTypeChecking`; a type outside the switch makes it return
      undefined, which its callers read as a failure. */
  predicate SimpleTypeCheck(text: string, p: Parameter) {
    match p.typ
    case Some("integer") => IntegerSyntax(text)
    case Some("number") =>
      if p.format == Some("double") || p.format == Some("float") then FloatSyntax(text)
      else IntegerSyntax(text)
    case Some("boolean") => text == "true" || text == "false"
    case Some("string") => true
    case _ => false
  }

  /** `simpleTypeChecking` applied to a form field that a JSON body made
      a non-string value: the regular expressions test `String(v)` (an
      integral number prints as digits, a fraction with a point), the
      boolean case compares with `===`. */
  predicate SimpleTypeCheckValue(v: JsValue, p: Parameter) {
    match v
    case Str(text) => SimpleTypeCheck(text, p)
    case Num(n) =>
      (match p.typ
       case Some("integer") => IsIntegral(n)
       case Some("number") =>
         IsIntegral(n) || p.format == Some("double") || p.format == Some("float")
       case Some("string") => true
       case _ => false)
    case _ => p.typ == Some("string")
  }

  /** A sign (possibly none) followed by a body, as the patterns read. */
  ghost predicate SignedForm(s: string, body: string) {
    s == body || s == "-" + body || s == "+" + body
  }

  ghost predicate DecimalDigits(d: string) {
    |d| > 0 && AllDigits(d)
  }

  /** The alternatives after the sign in the integer pattern. */
  ghost predicate IntegerBody(b: string) {
    b == "Infinity" || DecimalDigits(b)
  }

  /** The alternatives after the sign in the float pattern. */
  ghost predicate FloatBody(b: string) {
    b == "Infinity" || DecimalDigits(b) ||
    exists k :: 0 < k < |b| - 1 && b[k] == '.' && DecimalDigits(b[..k]) && DecimalDigits(b[k + 1..])
  }

  lemma DigitRunAll(t: string, i: nat)
    requires i <= |t|
    ensures DigitRun(t, i) == |t| - i <==> forall k :: i <= k < |t| ==> IsDigit(t[k])
  {
  }

  lemma {:induction false} DigitRunFrom(t: string, i: nat, j: nat)
    requires i <= j < |t| && !IsDigit(t[j])
    requires forall m :: i <= m < j ==> IsDigit(t[m])
    ensures DigitRun(t, i) == j - i
    decreases j - i
  {
    if i < j {
      DigitRunFrom(t, i + 1, j);
    }
  }

  /** The sign is split off the way the patterns split it. */
  lemma SignSplit(s: string, body: string)
    requires SignedForm(s, body)
    requires |body| > 0 ==> body[0] != '-' && body[0] != '+'
    ensures Unsigned(s) == body
  {
    if s == "-" + body || s == "+" + body {
      assert s[1..] == body;
    }
  }

  lemma UnsignedForm(s: string)
    ensures SignedForm(s, Unsigned(s))
  {
    if |s| > 0 && (s[0] == '-' || s[0] == '+') {
      assert s == [s[0]] + s[1..];
    }
  }

  lemma FloatBodyUnsigned(b: string)
    requires FloatBody(b) && |b| > 0
    ensures b[0] != '-' && b[0] != '+'
  {
    if b != "Infinity" && !DecimalDigits(b) {
      var j :| 0 < j < |b| - 1 && b[j] == '.' && DecimalDigits(b[..j]) && DecimalDigits(b[j + 1..]);
      assert b[..j][0] == b[0];
    }
  }

  /** What the scan of `FloatSyntax` accepts after the sign. */
  predicate FloatScanned(t: string) {
    t == "Infinity" ||
    (DigitRun(t, 0) > 0 && (DigitRun(t, 0) == |t| ||
      (t[DigitRun(t, 0)] == '.' && DigitRun(t, 0) + 1 < |t| &&
       DigitRun(t, DigitRun(t, 0) + 1) == |t| - DigitRun(t, 0) - 1)))
  }

  lemma FloatScanSound(t: string)
    requires FloatScanned(t)
    ensures FloatBody(t)
  {
    var k := DigitRun(t, 0);
    if t != "Infinity" && k < |t| {
      var n := DigitRun(t, k + 1);
      assert DecimalDigits(t[..k]) by {
        forall i | 0 <= i < k ensures IsDigit(t[..k][i]) { assert t[..k][i] == t[i]; }
      }
      var rest := t[k + 1..];
      assert DecimalDigits(rest) by {
        forall i | 0 <= i < |rest| ensures IsDigit(rest[i]) { assert rest[i] == t[k + 1 + i]; }
      }
      assert 0 < k < |t| - 1 && t[k] == '.';
    }
  }

  lemma FloatScanComplete(t: string)
    requires FloatBody(t)
    ensures FloatScanned(t)
  {
    if t != "Infinity" {
      if DecimalDigits(t) {
        DigitRunAll(t, 0);
      } else {
        var j :| 0 < j < |t| - 1 && t[j] == '.' && DecimalDigits(t[..j]) && DecimalDigits(t[j + 1..]);
        assert forall i :: 0 <= i < j ==> IsDigit(t[i]) by {
          forall i | 0 <= i < j ensures IsDigit(t[i]) { assert t[..j][i] == t[i]; }
        }
        assert forall i :: j + 1 <= i < |t| ==> IsDigit(t[i]) by {
          forall i | j + 1 <= i < |t| ensures IsDigit(t[i]) { assert t[j + 1..][i - j - 1] == t[i]; }
        }
        DigitRunFrom(t, 0, j);
        DigitRunAll(t, j + 1);
      }
    }
  }

  /** The scan with DigitRun decides the float body. */
  lemma FloatScan(t: string)
    ensures FloatScanned(t) <==> FloatBody(t)
  {
    if FloatScanned(t) {
      FloatScanSound(t);
    }
    if FloatBody(t) {
      FloatScanComplete(t);
    }
  }

  /** `integer` accepts exactly an optional sign followed by one or more
      digits or by `Infinity`. */
  lemma IntegerSyntaxIff(s: string)
    ensures IntegerSyntax(s) <==> exists body :: SignedForm(s, body) && IntegerBody(body)
  {
    var t := Unsigned(s);
    DigitRunAll(t, 0);
    UnsignedForm(s);
    if exists body :: SignedForm(s, body) && IntegerBody(body) {
      var body :| SignedForm(s, body) && IntegerBody(body);
      SignSplit(s, body);
    }
  }

  /** `number` with format `double` or `float` accepts exactly an optional
      sign followed by `Infinity`, digits, or digits, a point and digits. */
  lemma FloatSyntaxIff(s: string)
    ensures FloatSyntax(s) <==> exists body :: SignedForm(s, body) && FloatBody(body)
  {
    var t := Unsigned(s);
    UnsignedForm(s);
    FloatScan(t);
    if exists body :: SignedForm(s, body) && FloatBody(body) {
      var body :| SignedForm(s, body) && FloatBody(body);
      if |body| > 0 { FloatBodyUnsigned(body); }
      SignSplit(s, body);
    }
  }

  /** Every text the integer rule accepts, the float rule accepts too. */
  lemma IntegerIsFloat(s: string)
    ensures IntegerSyntax(s) ==> FloatSyntax(s)
  {
  }

  /** `boolean` accepts only the two literals, `string` everything, and a
      type outside the switch nothing. */
  lemma SimpleTypeCheckByType(text: string, p: Parameter)
    ensures p.typ == Some("boolean") ==> (SimpleTypeCheck(text, p) <==> text in {"true", "false"})
    ensures p.typ == Some("string") ==> SimpleTypeCheck(text, p)
    ensures p.typ !in {Some("integer"), Some("number"), Some("boolean"), Some("string")} ==>
              !SimpleTypeCheck(text, p)
    ensures p.typ == Some("number") ==> (IntegerSyntax(text) ==> SimpleTypeCheck(text, p))
  {
  }
}

=== FILE: structural.dfy ===
/** The structural type checker (`complexTypeChecking`): a parsed body
    value against a schema, following one `$ref` into the document; and
    the strict-mode search for body keys a schema does not declare
    (`isThereVariablesThatShouldNotBeSpecified`). A TypeError the
    JavaScript code would raise is an explicit outcome. */
module Structural {
  import opened Common
  import opened Text
  import opened JsValues
  import opened Swagger

  /** true, false, or a TypeError thrown on the way. */
  datatype Verdict = Pass | Fail | Throws

  /** The schema a node stands for once a non-empty `$ref` is followed;
      the target's own `$ref` is not looked at again. */
  function Effective(doc: SwaggerDoc, s: Schema): Target {
    if s.ref.Some? && s.ref.value != "" then Resolve(doc, s.ref.value) else Found(s)
  }

  /** `complexTypeChecking(v, model)`; `model` None is an undefined schema. */
  function Check(doc: SwaggerDoc, allowNull: bool, v: JsValue, model: Option<Schema>): (r: Verdict)
    decreases Size(v), 2, 0
  {
    if v.Null? then (if allowNull then Pass else Fail)
    else if model.None? then Throws
    else match Effective(doc, model.value)
      case WalkThrew => Throws
      case Undef => Throws
      case Found(s) => CheckSchema(doc, allowNull, v, s)
  }

  /** The `switch` on the resolved schema's `type`, for a value that is
      not null. */
  function CheckSchema(doc: SwaggerDoc, allowNull: bool, v: JsValue, s: Schema): (r: Verdict)
    decreases Size(v), 1, 0
  {
    match s.typ
    case Some("object") =>
      if s.properties.None? then Throws
      else CheckProperties(doc, allowNull, v, s, 0, true)
    case Some("array") =>
      if !v.Arr? then Fail else CheckItems(doc, allowNull, v, s.items, 0, true)
    case Some("integer") =>
      if v.Num? && IsIntegral(v.n) then Pass else Fail
    case Some(t) => if TypeOf(v) == t then Pass else Fail
    case None => Fail
  }

  /** `required.indexOf(name) != -1` behind `required &&`. */
  predicate IsRequired(s: Schema, name: string) {
    s.required.Some? && name in s.required.value
  }

  /** The `forEach` over the declared properties, from the i-th on, with
      the accumulator `objectIsCompliant` equal to `acc`. */
  function CheckProperties(doc: SwaggerDoc, allowNull: bool, v: JsValue, s: Schema, i: nat, acc: bool): (r: Verdict)
    requires s.properties.Some? && i <= |s.properties.value|
    decreases Size(v), 0, |s.properties.value| - i
  {
    var props := s.properties.value;
    if i == |props| then (if acc then Pass else Fail)
    else
      var name := props[i].0;
      var required := IsRequired(s, name);
      if !required && v.Undefined? then Throws
      else if !(required || Get(v, name) != Undefined) then CheckProperties(doc, allowNull, v, s, i + 1, acc)
      else if !acc then CheckProperties(doc, allowNull, v, s, i + 1, false)
      else if v.Undefined? then Throws
      else
        match Check(doc, allowNull, Get(v, name), Some(props[i].1))
        case Throws => Throws
        case r => CheckProperties(doc, allowNull, v, s, i + 1, r == Pass)
  }

  /** The `for` loop over the array elements, from the i-th on. */
  function CheckItems(doc: SwaggerDoc, allowNull: bool, v: JsValue, items: Option<Schema>, i: nat, acc: bool): (r: Verdict)
    requires v.Arr? && i <= |v.elems|
    decreases Size(v), 0, |v.elems| - i
  {
    if i == |v.elems| then (if acc then Pass else Fail)
    else if !acc then CheckItems(doc, allowNull, v, items, i + 1, false)
    else
      ElemSmaller(v.elems, i);
      match Check(doc, allowNull, v.elems[i], items)
      case Throws => Throws
      case r => CheckItems(doc, allowNull, v, items, i + 1, r == Pass)
  }

  /** A null value is decided by `allowNull` alone, before the schema is
      looked at: it never throws, whatever the schema. */
  lemma NullDecidedFirst(doc: SwaggerDoc, allowNull: bool, model: Option<Schema>)
    ensures Check(doc, allowNull, Null, model) != Throws
    ensures Check(doc, allowNull, Null, model) == Pass <==> allowNull
  {
  }

  /** A `$ref` of the form `#/definitions/X` is followed once: the value is
      checked against `definitions[X]` by its `type`, whatever `$ref` that
      target carries; a missing X throws. */
  lemma RefResolvedOnce(doc: SwaggerDoc, allowNull: bool, v: JsValue, s: Schema, name: string)
    requires doc.definitions.Some? && '/' !in name && '#' !in name
    requires s.ref == Some("#/definitions/" + name)
    requires !v.Null?
    ensures Check(doc, allowNull, v, Some(s)) ==
      match Find(doc.definitions.value, name)
      case Some(t) => CheckSchema(doc, allowNull, v, t.(ref := None))
      case None => Throws
  {
    DefinitionReference(doc, name);
    match Find(doc.definitions.value, name)
    case Some(t) => CheckSchemaIgnoresRef(doc, allowNull, v, t);
    case None =>
  }

  lemma CheckSchemaIgnoresRef(doc: SwaggerDoc, allowNull: bool, v: JsValue, t: Schema)
    ensures CheckSchema(doc, allowNull, v, t) == CheckSchema(doc, allowNull, v, t.(ref := None))
  {
    if t.typ == Some("object") && t.properties.Some? {
      PropertiesIgnoreRef(doc, allowNull, v, t, 0, true);
    }
  }

  lemma {:induction false} PropertiesIgnoreRef(doc: SwaggerDoc, allowNull: bool, v: JsValue, t: Schema, i: nat, acc: bool)
    requires t.properties.Some? && i <= |t.properties.value|
    ensures CheckProperties(doc, allowNull, v, t, i, acc) == CheckProperties(doc, allowNull, v, t.(ref := None), i, acc)
    decreases |t.properties.value| - i
  {
    if i < |t.properties.value| {
      PropertiesIgnoreRef(doc, allowNull, v, t, i + 1, true);
      PropertiesIgnoreRef(doc, allowNull, v, t, i + 1, false);
    }
  }

  /** A declared property the check visits: required, or present. */
  predicate Visited(s: Schema, v: JsValue, name: string) {
    IsRequired(s, name) || Get(v, name) != Undefined
  }

  /** One turn of the loop over the declared properties of an object. */
  lemma PropertiesStep(doc: SwaggerDoc, allowNull: bool, v: JsValue, s: Schema, i: nat, acc: bool)
    requires v.Obj? && s.properties.Some? && i < |s.properties.value|
    ensures !Visited(s, v, s.properties.value[i].0) ==>
      CheckProperties(doc, allowNull, v, s, i, acc) == CheckProperties(doc, allowNull, v, s, i + 1, acc)
    ensures Visited(s, v, s.properties.value[i].0) && !acc ==>
      CheckProperties(doc, allowNull, v, s, i, acc) == CheckProperties(doc, allowNull, v, s, i + 1, false)
    ensures Visited(s, v, s.properties.value[i].0) && acc ==>
      CheckProperties(doc, allowNull, v, s, i, acc) ==
        (var r := Check(doc, allowNull, Get(v, s.properties.value[i].0), Some(s.properties.value[i].1));
         if r == Throws then Throws else CheckProperties(doc, allowNull, v, s, i + 1, r == Pass))
  {
  }

  /** Every declared property from the i-th on that is read passes. */
  predicate PropertiesPassing(doc: SwaggerDoc, allowNull: bool, v: JsValue, s: Schema, i: nat)
    requires s.properties.Some?
  {
    forall j :: i <= j < |s.properties.value| && Visited(s, v, s.properties.value[j].0) ==>
      Check(doc, allowNull, Get(v, s.properties.value[j].0), Some(s.properties.value[j].1)) == Pass
  }

  lemma PropertiesPassingStep(doc: SwaggerDoc, allowNull: bool, v: JsValue, s: Schema, i: nat)
    requires s.properties.Some? && i < |s.properties.value|
    ensures PropertiesPassing(doc, allowNull, v, s, i) <==>
      PropertiesPassing(doc, allowNull, v, s, i + 1) &&
      (Visited(s, v, s.properties.value[i].0) ==>
        Check(doc, allowNull, Get(v, s.properties.value[i].0), Some(s.properties.value[i].1)) == Pass)
  {
  }

  lemma {:induction false} PropertiesPassFrom(doc: SwaggerDoc, allowNull: bool, v: JsValue, s: Schema, i: nat, acc: bool)
    requires v.Obj? && s.properties.Some? && i <= |s.properties.value|
    ensures CheckProperties(doc, allowNull, v, s, i, acc) == Pass <==>
      acc && PropertiesPassing(doc, allowNull, v, s, i)
    decreases |s.properties.value| - i
  {
    var props := s.properties.value;
    if i < |props| {
      PropertiesPassFrom(doc, allowNull, v, s, i + 1, true);
      PropertiesPassFrom(doc, allowNull, v, s, i + 1, false);
      PropertiesStep(doc, allowNull, v, s, i, acc);
      PropertiesPassingStep(doc, allowNull, v, s, i);
    }
  }

  /** An object passes an object schema iff every declared property that
      is required or present passes; absent optional properties and keys
      the schema does not declare play no part. */
  lemma ObjectPassesIff(doc: SwaggerDoc, allowNull: bool, v: JsValue, s: Schema)
    requires v.Obj? && s.typ == Some("object") && s.properties.Some?
    ensures CheckSchema(doc, allowNull, v, s) == Pass <==>
      forall j :: 0 <= j < |s.properties.value| && Visited(s, v, s.properties.value[j].0) ==>
        Check(doc, allowNull, Get(v, s.properties.value[j].0), Some(s.properties.value[j].1)) == Pass
  {
    PropertiesPassFrom(doc, allowNull, v, s, 0, true);
  }

  lemma {:induction false} PropertiesSameReads(doc: SwaggerDoc, allowNull: bool, v: JsValue, w: JsValue, s: Schema, i: nat, acc: bool)
    requires v.Obj? && w.Obj? && s.properties.Some? && i <= |s.properties.value|
    requires forall j :: 0 <= j < |s.properties.value| ==> Get(v, s.properties.value[j].0) == Get(w, s.properties.value[j].0)
    ensures CheckProperties(doc, allowNull, v, s, i, acc) == CheckProperties(doc, allowNull, w, s, i, acc)
    decreases |s.properties.value| - i
  {
    if i < |s.properties.value| {
      var name := s.properties.value[i].0;
      assert Get(v, name) == Get(w, name);
      PropertiesSameReads(doc, allowNull, v, w, s, i + 1, true);
      PropertiesSameReads(doc, allowNull, v, w, s, i + 1, false);
    }
  }

  /** Two objects that agree on every declared property get the same
      verdict, whatever other keys they carry. */
  lemma UndeclaredKeysIgnored(doc: SwaggerDoc, allowNull: bool, v: JsValue, w: JsValue, s: Schema)
    requires v.Obj? && w.Obj? && s.typ == Some("object") && s.properties.Some?
    requires forall j :: 0 <= j < |s.properties.value| ==> Get(v, s.properties.value[j].0) == Get(w, s.properties.value[j].0)
    ensures CheckSchema(doc, allowNull, v, s) == CheckSchema(doc, allowNull, w, s)
  {
    PropertiesSameReads(doc, allowNull, v, w, s, 0, true);
  }

  lemma {:induction false} ItemsPassFrom(doc: SwaggerDoc, allowNull: bool, v: JsValue, items: Option<Schema>, i: nat, acc: bool)
    requires v.Arr? && i <= |v.elems|
    ensures CheckItems(doc, allowNull, v, items, i, acc) == Pass <==>
      acc && forall j :: i <= j < |v.elems| ==> Check(doc, allowNull, v.elems[j], items) == Pass
    decreases |v.elems| - i
  {
    if i < |v.elems| {
      ItemsPassFrom(doc, allowNull, v, items, i + 1, true);
      ItemsPassFrom(doc, allowNull, v, items, i + 1, false);
    }
  }

  /** An array schema passes exactly the arrays whose every element passes
      (so the empty array), and fails every value that is not an array. */
  lemma ArrayPassesIff(doc: SwaggerDoc, allowNull: bool, v: JsValue, s: Schema)
    requires s.typ == Some("array")
    ensures !v.Arr? ==> CheckSchema(doc, allowNull, v, s) == Fail
    ensures v.Arr? ==> (CheckSchema(doc, allowNull, v, s) == Pass <==>
      forall j :: 0 <= j < |v.elems| ==> Check(doc, allowNull, v.elems[j], s.items) == Pass)
  {
    if v.Arr? {
      ItemsPassFrom(doc, allowNull, v, s.items, 0, true);
    }
  }

  /** `integer` passes exactly the numbers with no fractional part; every
      other type name passes exactly the values whose `typeof` it is. */
  lemma PrimitivePassesIff(doc: SwaggerDoc, allowNull: bool, v: JsValue, s: Schema)
    requires s.typ != Some("object") && s.typ != Some("array")
    ensures CheckSchema(doc, allowNull, v, s) != Throws
    ensures s.typ == Some("integer") ==> (CheckSchema(doc, allowNull, v, s) == Pass <==> v.Num? && IsIntegral(v.n))
    ensures s.typ != Some("integer") ==> (CheckSchema(doc, allowNull, v, s) == Pass <==> s.typ == Some(TypeOf(v)))
  {
  }

  /** The schema whose `properties` a strict body check reads, once a
      non-empty `$ref` is followed; Err when following it threw,
      None for undefined. */
  function SearchTarget(doc: SwaggerDoc, s: Schema): Result<Option<Schema>, ()> {
    match Effective(doc, s)
    case WalkThrew => Err(())
    case Undef => Ok(None)
    case Found(t) => Ok(Some(t))
  }

  /** `isThereVariablesThatShouldNotBeSpecified(v, where)`: Ok(true) when
      some key of `v`, or of an object nested in it, is not among the
      declared `properties`; Err when a TypeError is thrown. */
  function HasExtra(doc: SwaggerDoc, v: JsValue, where: Option<Schema>): (r: Result<bool, ()>)
    decreases Size(v), 1, 0
  {
    if where.None? then Err(())
    else match SearchTarget(doc, where.value)
      case Err(_) => Err(())
      case Ok(w) =>
        match Entries(v)
        case None => Err(())
        case Some(es) => ExtraEntries(doc, v, w, es, 0, false)
  }

  /** The `forEach` over the keys of `v`, from the i-th on, with the
      accumulator `variableToReturn` equal to `acc`. A nested object (or
      null) is searched against the declared property of the same name;
      any other value only needs its key declared. */
  function ExtraEntries(doc: SwaggerDoc, v: JsValue, w: Option<Schema>, es: seq<(string, JsValue)>, i: nat, acc: bool): (r: Result<bool, ()>)
    requires Entries(v) == Some(es) && i <= |es|
    decreases Size(v), 0, |es| - i
  {
    if i == |es| then Ok(acc)
    else
      var (key, x) := es[i];
      if (x.Obj? || x.Null?) && acc then ExtraEntries(doc, v, w, es, i + 1, true)
      else if w.None? || w.value.properties.None? then Err(())
      else if x.Obj? || x.Null? then
        match HasExtra(doc, x, Find(w.value.properties.value, key))
        case Err(_) => Err(())
        case Ok(b) => ExtraEntries(doc, v, w, es, i + 1, b)
      else ExtraEntries(doc, v, w, es, i + 1, acc || Find(w.value.properties.value, key).None?)
  }

  /** A key whose value is not an object is extra iff it is not declared. */
  predicate UndeclaredFlatKey(w: Schema, e: (string, JsValue))
    requires w.properties.Some?
  {
    !(e.1.Obj? || e.1.Null?) && Find(w.properties.value, e.0).None?
  }

  lemma {:induction false} FlatEntriesFrom(doc: SwaggerDoc, v: JsValue, w: Schema, es: seq<(string, JsValue)>, i: nat, acc: bool)
    requires Entries(v) == Some(es) && i <= |es| && w.properties.Some?
    requires forall j :: 0 <= j < |es| ==> !es[j].1.Obj? && !es[j].1.Null?
    ensures ExtraEntries(doc, v, Some(w), es, i, acc) ==
      Ok(acc || exists j :: i <= j < |es| && UndeclaredFlatKey(w, es[j]))
    decreases |es| - i
  {
    if i < |es| {
      FlatEntriesFrom(doc, v, w, es, i + 1, acc || Find(w.properties.value, es[i].0).None?);
      assert UndeclaredFlatKey(w, es[i]) <==> Find(w.properties.value, es[i].0).None?;
    }
  }

  /** For an object with no nested objects, the strict body check reports
      extra values iff one of its keys is not a declared property. */
  lemma FlatObjectExtra(doc: SwaggerDoc, v: JsValue, s: Schema)
    requires v.Obj? && forall j :: 0 <= j < |v.fields| ==> !v.fields[j].1.Obj? && !v.fields[j].1.Null?
    requires Effective(doc, s).Found? && Effective(doc, s).schema.properties.Some?
    ensures HasExtra(doc, v, Some(s)) ==
      Ok(exists j :: 0 <= j < |v.fields| && Find(Effective(doc, s).schema.properties.value, v.fields[j].0).None?)
  {
    var w := Effective(doc, s).schema;
    FlatEntriesFrom(doc, v, w, v.fields, 0, false);
    assert (exists j :: 0 <= j < |v.fields| && UndeclaredFlatKey(w, v.fields[j])) <==>
           (exists j :: 0 <= j < |v.fields| && Find(w.properties.value, v.fields[j].0).None?);
  }

  /** Once a key has been found extra, the search short-circuits: nested
      objects are no longer searched and the answer stays true. */
  lemma {:induction false} ExtraEntriesOnceTrue(doc: SwaggerDoc, v: JsValue, w: Schema, es: seq<(string, JsValue)>, i: nat)
    requires Entries(v) == Some(es) && i <= |es| && w.properties.Some?
    ensures ExtraEntries(doc, v, Some(w), es, i, true) == Ok(true)
    decreases |es| - i
  {
    if i < |es| {
      ExtraEntriesOnceTrue(doc, v, w, es, i + 1);
    }
  }

  /** Keys holding plain values that the schema declares leave the search
      where it was. */
  lemma {:induction false} DeclaredFlatKeysSkipped(doc: SwaggerDoc, v: JsValue, w: Schema, es: seq<(string, JsValue)>, i: nat, j: nat)
    requires Entries(v) == Some(es) && i <= j <= |es| && w.properties.Some?
    requires forall k :: i <= k < j ==> !es[k].1.Obj? && !es[k].1.Null? && Find(w.properties.value, es[k].0).Some?
    ensures ExtraEntries(doc, v, Some(w), es, i, false) == ExtraEntries(doc, v, Some(w), es, j, false)
    decreases j - i
  {
    if i < j {
      DeclaredFlatKeyStep(doc, v, w, es, i);
      DeclaredFlatKeysSkipped(doc, v, w, es, i + 1, j);
    }
  }

  lemma DeclaredFlatKeyStep(doc: SwaggerDoc, v: JsValue, w: Schema, es: seq<(string, JsValue)>, i: nat)
    requires Entries(v) == Some(es) && i < |es| && w.properties.Some?
    requires !es[i].1.Obj? && !es[i].1.Null? && Find(w.properties.value, es[i].0).Some?
    ensures ExtraEntries(doc, v, Some(w), es, i, false) == ExtraEntries(doc, v, Some(w), es, i + 1, false)
  {
  }

  /** A key holding an object (or null) is searched recursively against
      the declared property of the same name: an extra key found inside it
      makes the answer true, an undeclared property makes the search throw,
      and otherwise the search goes on with the next key. */
  lemma NestedKeySearched(doc: SwaggerDoc, v: JsValue, w: Schema, es: seq<(string, JsValue)>, i: nat)
    requires Entries(v) == Some(es) && i < |es| && w.properties.Some?
    requires es[i].1.Obj? || es[i].1.Null?
    ensures Find(w.properties.value, es[i].0).None? ==> ExtraEntries(doc, v, Some(w), es, i, false) == Err(())
    ensures HasExtra(doc, es[i].1, Find(w.properties.value, es[i].0)) == Ok(true) ==>
      ExtraEntries(doc, v, Some(w), es, i, false) == Ok(true)
    ensures HasExtra(doc, es[i].1, Find(w.properties.value, es[i].0)) == Ok(false) ==>
      ExtraEntries(doc, v, Some(w), es, i, false) == ExtraEntries(doc, v, Some(w), es, i + 1, false)
    ensures HasExtra(doc, es[i].1, Find(w.properties.value, es[i].0)).Err? ==>
      ExtraEntries(doc, v, Some(w), es, i, false) == Err(())
  {
    if HasExtra(doc, es[i].1, Find(w.properties.value, es[i].0)) == Ok(true) {
      ExtraEntriesOnceTrue(doc, v, w, es, i + 1);
    }
  }

  /** In an object whose keys before the j-th hold declared plain values,
      an object under the j-th key decides the search: an extra key inside
      it is reported, and an undeclared j-th key throws, whatever follows. */
  lemma NestedObjectExtra(doc: SwaggerDoc, v: JsValue, s: Schema, j: nat)
    requires v.Obj? && Effective(doc, s).Found? && Effective(doc, s).schema.properties.Some?
    requires j < |v.fields| && (v.fields[j].1.Obj? || v.fields[j].1.Null?)
    requires forall k :: 0 <= k < j ==>
      (!v.fields[k].1.Obj? && !v.fields[k].1.Null? &&
       Find(Effective(doc, s).schema.properties.value, v.fields[k].0).Some?)
    ensures Find(Effective(doc, s).schema.properties.value, v.fields[j].0).None? ==>
      HasExtra(doc, v, Some(s)) == Err(())
    ensures HasExtra(doc, v.fields[j].1, Find(Effective(doc, s).schema.properties.value, v.fields[j].0)) == Ok(true) ==>
      HasExtra(doc, v, Some(s)) == Ok(true)
    ensures HasExtra(doc, v.fields[j].1, Find(Effective(doc, s).schema.properties.value, v.fields[j].0)).Err? ==>
      HasExtra(doc, v, Some(s)) == Err(())
  {
    var w := Effective(doc, s).schema;
    assert HasExtra(doc, v, Some(s)) == ExtraEntries(doc, v, Some(w), v.fields, 0, false);
    DeclaredFlatKeysSkipped(doc, v, w, v.fields, 0, j);
    NestedKeySearched(doc, v, w, v.fields, j);
  }

  /** undefined and null have no keys to enumerate: the check throws. */
  lemma NoKeysThrows(doc: SwaggerDoc, v: JsValue, where: Option<Schema>)
    requires v.Undefined? || v.Null?
    ensures HasExtra(doc, v, where).Err?
  {
  }
}

=== FILE: swagger.dfy ===
/** The parts of a Swagger 2.0 document the validator reads: path
    templates, operations and their parameters, the base path, and the
    schemas of `definitions`; and the resolution of a `$ref` pointer by
    walking the document one path segment at a time. */
module Swagger {
  import opened Common
  import opened Text
  import opened JsValues

  /** A schema object. Each field is None when the key is absent
      (`$ref`, `type`, `properties`, `required`, `items`). */
  datatype Schema = Schema(
    ref: Option<string>,
    typ: Option<string>,
    properties: Option<seq<(string, Schema)>>,
    required: Option<seq<string>>,
    items: Option<Schema>)

  /** The schema read from an object that has none of the five keys. */
  const NoKeywords := Schema(None, None, None, None, None)

  /** A parameter object: `name`, `in`, `required`, `type`, `format`,
      `enum` and `schema`. */
  datatype Parameter = Parameter(
    name: string,
    location: string,
    required: bool,
    typ: Option<string>,
    format: Option<string>,
    allowed: Option<seq<JsValue>>,
    schema: Option<Schema>)

  /** One verb of one path: its `parameters`, None when the key is absent. */
  datatype Operation = Operation(parameters: Option<seq<Parameter>>)

  /** `paths` maps each path template to its verbs (lower case keys). */
  datatype SwaggerDoc = SwaggerDoc(
    paths: Option<seq<(string, seq<(string, Operation)>)>>,
    basePath: Option<string>,
    definitions: Option<seq<(string, Schema)>>)

  /** Where a walk through the document stands: the document itself, its
      `definitions` table, a schema, the `properties` table of a schema,
      some other value that is not undefined, or undefined. */
  datatype Node = Root | DefinitionsTable | SchemaNode(s: Schema)
                | PropertiesTable(p: seq<(string, Schema)>) | Opaque | Absent

  /** The outcome of resolving a reference: reading a property of
      undefined threw, the walk ended on undefined, or on an object read
      as a schema. */
  datatype Target = WalkThrew | Undef | Found(schema: Schema)

  /** `node[seg]`; None when `node` is undefined (a TypeError). */
  function Step(doc: SwaggerDoc, node: Node, seg: string): (r: Option<Node>)
    ensures r.None? <==> node.Absent?
  {
    match node
    case Absent => None
    case Opaque => Some(Opaque)
    case Root =>
      if seg == "definitions" then Some(if doc.definitions.Some? then DefinitionsTable else Absent)
      else if seg == "paths" then Some(if doc.paths.Some? then Opaque else Absent)
      else if seg == "basePath" then Some(if doc.basePath.Some? then Opaque else Absent)
      else Some(Absent)
    case DefinitionsTable =>
      var defs := if doc.definitions.Some? then doc.definitions.value else [];
      Some(match Find(defs, seg) case Some(s) => SchemaNode(s) case None => Absent)
    case PropertiesTable(p) =>
      Some(match Find(p, seg) case Some(s) => SchemaNode(s) case None => Absent)
    case SchemaNode(s) =>
      if seg == "properties" then Some(if s.properties.Some? then PropertiesTable(s.properties.value) else Absent)
      else if seg == "items" then Some(if s.items.Some? then SchemaNode(s.items.value) else Absent)
      else if seg == "$ref" then Some(if s.ref.Some? then Opaque else Absent)
      else if seg == "type" then Some(if s.typ.Some? then Opaque else Absent)
      else if seg == "required" then Some(if s.required.Some? then Opaque else Absent)
      else Some(Absent)
  }

  /** The node reached from the document root along `segs`. */
  function Walk(doc: SwaggerDoc, segs: seq<string>): Option<Node> {
    if |segs| == 0 then Some(Root)
    else match Walk(doc, segs[..|segs| - 1])
      case None => None
      case Some(n) => Step(doc, n, segs[|segs| - 1])
  }

  /** The segments a reference is walked along: the first `#` is removed,
      the rest is split on `/` and the first piece is skipped. */
  function Segments(reference: string): (segs: seq<string>) {
    Split(RemoveFirst(reference, '#'), '/')[1..]
  }

  function AsTarget(n: Option<Node>): (t: Target)
    ensures t.WalkThrew? <==> n.None?
    ensures t.Undef? <==> n == Some(Absent)
  {
    match n
    case None => WalkThrew
    case Some(Absent) => Undef
    case Some(SchemaNode(s)) => Found(s)
    case Some(_) => Found(NoKeywords)
  }

  /** What `getObjectFromSwaggerReference` returns for `reference`. */
  function Resolve(doc: SwaggerDoc, reference: string): Target {
    AsTarget(Walk(doc, Segments(reference)))
  }

  lemma TwoSegments(a: string, b: string)
    requires '/' !in a && '#' !in a && '/' !in b && '#' !in b
    ensures Segments(['#', '/'] + a + ['/'] + b) == [a, b]
  {
    var rest := ['/'] + a + ['/'] + b;
    assert ['#', '/'] + a + ['/'] + b == ['#'] + rest;
    assert RemoveFirst(['#'] + rest, '#') == rest;
    assert rest == [] + ['/'] + (a + ['/'] + b);
    SplitPiece([], a + ['/'] + b, '/');
    SplitPiece(a, b, '/');
    SplitPiece(b, [], '/');
  }

  lemma DefinitionSegments(name: string)
    requires '/' !in name && '#' !in name
    ensures Segments("#/definitions/" + name) == ["definitions", name]
  {
    assert "#/definitions/" + name == ['#', '/'] + "definitions" + ['/'] + name;
    TwoSegments("definitions", name);
  }

  /** A local pointer `#/definitions/X` reaches `definitions[X]`. */
  lemma DefinitionReference(doc: SwaggerDoc, name: string)
    requires doc.definitions.Some?
    requires '/' !in name && '#' !in name
    ensures Resolve(doc, "#/definitions/" + name) ==
      (match Find(doc.definitions.value, name) case Some(s) => Found(s) case None => Undef)
  {
    DefinitionSegments(name);
    var segs := ["definitions", name];
    assert segs[..1] == ["definitions"];
    assert segs[..1][..0] == [];
    assert Walk(doc, segs[..1]) == Some(DefinitionsTable);
  }

  /** Once a property read has thrown, the rest of the walk is skipped. */
  lemma {:induction false} WalkThrows(doc: SwaggerDoc, segs: seq<string>, i: nat)
    requires i <= |segs| && Walk(doc, segs[..i]).None?
    ensures Walk(doc, segs).None?
  {
    if i < |segs| {
      var init := segs[..|segs| - 1];
      assert init[..i] == segs[..i];
      WalkThrows(doc, init, i);
    } else {
      assert segs[..i] == segs;
    }
  }

  /** `getObjectFromSwaggerReference`: walks the document along the
      segments, one property read per segment. */
  method GetObjectFromReference(doc: SwaggerDoc, reference: string) returns (t: Target)
    ensures t == Resolve(doc, reference)
  {
    var segs := Segments(reference);
    var node := Root;
    var i := 0;
    while i < |segs|
      invariant 0 <= i <= |segs|
      invariant Walk(doc, segs[..i]) == Some(node)
    {
      assert segs[..i + 1][..i] == segs[..i];
      var next := Step(doc, node, segs[i]);
      if next.None? {
        assert Walk(doc, segs[..i + 1]).None?;
        WalkThrows(doc, segs, i + 1);
        return WalkThrew;
      }
      node := next.value;
      i := i + 1;
    }
    assert segs[..i] == segs;
    t := AsTarget(Some(node));
  }
}

=== FILE: text.dfy ===
/** Character classes and the few string operations of the JavaScript
    runtime that the validator relies on (`\w`, `toLowerCase`, `split`,
    `replace` of a single character, number-to-string of an index). */
module Text {

  /** `\w` of a JavaScript regular expression: [A-Za-z0-9_]. */
  predicate IsWordChar(c: char) {
    ('a' <= c <= 'z') || ('A' <= c <= 'Z') || ('0' <= c <= '9') || c == '_'
  }

  predicate IsDigit(c: char) {
    '0' <= c <= '9'
  }

  predicate AllWordChars(s: string) {
    forall k :: 0 <= k < |s| ==> IsWordChar(s[k])
  }

  predicate AllDigits(s: string) {
    forall k :: 0 <= k < |s| ==> IsDigit(s[k])
  }

  /** `toLowerCase` restricted to the ASCII letters. */
  function LowerChar(c: char): (d: char)
    ensures 'A' <= c <= 'Z' ==> 'a' <= d <= 'z' && d as int == c as int + 32
    ensures !('A' <= c <= 'Z') ==> d == c
  {
    if 'A' <= c <= 'Z' then (c as int + 32) as char else c
  }

  function UpperChar(c: char): (d: char)
    ensures 'a' <= c <= 'z' ==> 'A' <= d <= 'Z' && d as int == c as int - 32
    ensures !('a' <= c <= 'z') ==> d == c
  {
    if 'a' <= c <= 'z' then (c as int - 32) as char else c
  }

  function LowerCase(s: string): (r: string)
    ensures |r| == |s|
    ensures forall k :: 0 <= k < |s| ==> r[k] == LowerChar(s[k])
  {
    if |s| == 0 then [] else [LowerChar(s[0])] + LowerCase(s[1..])
  }

  /** Character equality under the `i` flag of a regular expression
      (ASCII letters compared without case). */
  predicate SameIgnoringCase(a: char, b: char) {
    UpperChar(a) == UpperChar(b)
  }

  /** Length of the longest run of word characters in `s` starting at `i`
      (what a greedy `\w+` consumes). */
  function WordRun(s: string, i: nat): (n: nat)
    requires i <= |s|
    ensures i + n <= |s|
    ensures forall k :: i <= k < i + n ==> IsWordChar(s[k])
    ensures i + n == |s| || !IsWordChar(s[i + n])
    decreases |s| - i
  {
    if i < |s| && IsWordChar(s[i]) then 1 + WordRun(s, i + 1) else 0
  }

  /** `String.prototype.split` with a one-character separator. */
  function Split(s: string, sep: char): (parts: seq<string>)
    ensures |parts| >= 1
  {
    if |s| == 0 then [""]
    else
      var rest := Split(s[1..], sep);
      if s[0] == sep then [""] + rest else [[s[0]] + rest[0]] + rest[1..]
  }

  /** A piece without the separator splits into itself, and a separator
      after it starts a new piece. */
  lemma {:induction false} SplitPiece(a: string, b: string, sep: char)
    requires sep !in a
    ensures Split(a, sep) == [a]
    ensures Split(a + [sep] + b, sep) == [a] + Split(b, sep)
  {
    if |a| == 0 {
      assert [sep] + b == a + [sep] + b;
      assert ([sep] + b)[1..] == b;
    } else {
      SplitPiece(a[1..], b, sep);
      assert (a + [sep] + b)[1..] == a[1..] + [sep] + b;
      assert [a[0]] + a[1..] == a;
    }
  }

  /** `s.replace(c, '')` with a one-character pattern: drops the first `c`. */
  function RemoveFirst(s: string, c: char): (r: string)
    ensures c !in s ==> r == s
    ensures c in s ==> |r| == |s| - 1
  {
    if |s| == 0 then []
    else if s[0] == c then s[1..]
    else [s[0]] + RemoveFirst(s[1..], c)
  }

  /** The first `c` is the one removed; the characters before and after it
      are kept, in order. */
  lemma {:induction false} RemoveFirstAt(s: string, c: char, i: nat)
    requires i < |s| && s[i] == c && c !in s[..i]
    ensures RemoveFirst(s, c) == s[..i] + s[i + 1..]
  {
    if i > 0 {
      var t := s[1..];
      assert s[0] == s[..i][0] && s[0] != c;
      assert t[..i - 1] == s[1..i];
      RemoveFirstAt(t, c, i - 1);
      assert s[..i] == [s[0]] + t[..i - 1];
      assert t[i..] == s[i + 1..];
    }
  }

  function DigitChar(d: nat): (c: char)
    requires d < 10
    ensures IsDigit(c)
  {
    ('0' as int + d) as char
  }

  /** `String(n)` for an array index n. */
  function NatToString(n: nat): (s: string)
    ensures |s| >= 1 && AllDigits(s)
  {
    if n < 10 then [DigitChar(n)] else NatToString(n / 10) + [DigitChar(n % 10)]
  }

  /** The number a string of decimal digits denotes. */
  function DigitsValue(s: string): nat
    requires AllDigits(s)
  {
    if |s| == 0 then 0
    else 10 * DigitsValue(s[..|s| - 1]) + (s[|s| - 1] as int - '0' as int)
  }

  /** `String(n)` is the decimal numeral of n, without leading zeros. */
  lemma {:induction false} NatToStringValue(n: nat)
    ensures DigitsValue(NatToString(n)) == n
    ensures |NatToString(n)| > 1 ==> NatToString(n)[0] != '0'
  {
    if n >= 10 {
      NatToStringValue(n / 10);
      var s := NatToString(n);
      assert s[..|s| - 1] == NatToString(n / 10);
      assert s[|s| - 1] == DigitChar(n % 10);
    }
  }

  /** Distinct indices give distinct keys. */
  lemma NatToStringInjective(a: nat, b: nat)
    ensures NatToString(a) == NatToString(b) ==> a == b
  {
    NatToStringValue(a);
    NatToStringValue(b);
  }
}

=== FILE: validator.dfy ===
/** The validator object: what its constructor builds (one compiled route
    per declared path, the list of model names), how an incoming request is
    routed to a declared path, how its errors are collected, and what the
    `all()` and per-verb middlewares then do with the request. */
module Middleware {
  import opened Common
  import opened JsValues
  import opened Swagger
  import opened PathTemplate
  import opened Operations
  import opened Structural
  import opened Validation
  import opened Config

  type Paths = seq<(string, seq<(string, Operation)>)>

  /** The routes the constructor compiles, one per key of `paths`, in key
      order. */
  function RoutesOf(paths: Paths): seq<Route> {
    seq(|paths|, i requires 0 <= i < |paths| => CompileRoute(paths[i].0))
  }

  /** Each compiled route remembers its Swagger path and lists exactly the
      variables of its template. */
  lemma RoutesOfValid(paths: Paths)
    ensures |RoutesOf(paths)| == |paths|
    ensures forall i :: 0 <= i < |paths| ==>
      ValidRoute(RoutesOf(paths)[i]) && RoutesOf(paths)[i].swaggerPath == paths[i].0
  {
  }

  /** `getParsingParameters`: the first route, in declaration order, whose
      full expression matches the URL. */
  function FirstRoute(basePath: string, routes: seq<Route>, url: string): (r: Option<Route>)
    ensures r.Some? ==> r.value in routes && UrlMatches(basePath, r.value, url)
    decreases |routes|
  {
    if |routes| == 0 then None
    else if UrlMatches(basePath, routes[0], url) then Some(routes[0])
    else FirstRoute(basePath, routes[1..], url)
  }

  /** The route found is the earliest matching one; none is found exactly
      when no route matches. */
  lemma {:induction false} FirstRouteMeaning(basePath: string, routes: seq<Route>, url: string)
    ensures FirstRoute(basePath, routes, url).None? <==>
      forall i :: 0 <= i < |routes| ==> !UrlMatches(basePath, routes[i], url)
    ensures FirstRoute(basePath, routes, url).Some? ==>
      exists i :: 0 <= i < |routes| && routes[i] == FirstRoute(basePath, routes, url).value &&
        UrlMatches(basePath, routes[i], url) &&
        forall k :: 0 <= k < i ==> !UrlMatches(basePath, routes[k], url)
    decreases |routes|
  {
    if |routes| > 0 && !UrlMatches(basePath, routes[0], url) {
      FirstRouteMeaning(basePath, routes[1..], url);
      if FirstRoute(basePath, routes[1..], url).Some? {
        var i :| 0 <= i < |routes[1..]| && routes[1..][i] == FirstRoute(basePath, routes[1..], url).value &&
          UrlMatches(basePath, routes[1..][i], url) &&
          forall k :: 0 <= k < i ==> !UrlMatches(basePath, routes[1..][k], url);
        assert routes[i + 1] == routes[1..][i];
        assert forall k :: 0 <= k < i + 1 ==> !UrlMatches(basePath, routes[k], url) by {
          forall k | 0 <= k < i + 1 ensures !UrlMatches(basePath, routes[k], url) {
            if k > 0 { assert routes[k] == routes[1..][k - 1]; }
          }
        }
      } else {
        forall i | 0 <= i < |routes| ensures !UrlMatches(basePath, routes[i], url) {
          if i > 0 { assert routes[i] == routes[1..][i - 1]; }
        }
      }
    } else if |routes| > 0 {
      assert routes[0] == FirstRoute(basePath, routes, url).value;
    }
  }

  /** Which error stopped the middleware: the missing Swagger entry, or a
      TypeError thrown by the runtime. */
  datatype Failure = NoEntryThrown(entry: NoEntry) | TypeErrorThrown

  /** What a middleware does with one request: `next()` without looking at
      it, `next()` after a clean validation, status 400 with the errors
      handed to `onError` (viaHandler) or to `next(errors)`, or an
      exception. */
  datatype Outcome =
    | PassThrough
    | Accept
    | Reject(status: nat, errors: seq<ValidationError>, viaHandler: bool)
    | Thrown(failure: Failure)

  /** The end of both middlewares, once the errors are collected. */
  function Decide(hasOnError: bool, errors: Result<seq<ValidationError>, ()>): Outcome {
    match errors
    case Err(_) => Thrown(TypeErrorThrown)
    case Ok(es) => if |es| == 0 then Accept else Reject(400, es, hasOnError)
  }

  /** The request is accepted exactly when there are no errors; otherwise
      it gets status 400 with all of its errors, passed to `onError` when
      one was configured and to `next` otherwise. */
  lemma DecideMeaning(hasOnError: bool, errors: Result<seq<ValidationError>, ()>)
    ensures Decide(hasOnError, errors) == Accept <==> errors == Ok([])
    ensures Decide(hasOnError, errors).Reject? <==> errors.Ok? && errors.value != []
    ensures Decide(hasOnError, errors).Reject? ==>
      Decide(hasOnError, errors).status == 400 &&
      Decide(hasOnError, errors).errors == errors.value &&
      Decide(hasOnError, errors).viaHandler == hasOnError
    ensures Decide(hasOnError, errors).Thrown? <==> errors.Err?
    ensures !Decide(hasOnError, errors).PassThrough?
  {
  }

  /** The parts of an Express request the middlewares read: `method`,
      `url`, `query`, `params` and the raw `body`. */
  datatype Incoming = Incoming(
    verb: string,
    url: string,
    query: seq<(string, string)>,
    params: seq<(string, string)>,
    body: JsValue)

  /** The middleware returned for one declared operation: `req.params` as
      Express filled them, the body defaulted to `{}`. */
  function DeclaredOutcome(s: Settings, params: seq<Parameter>, req: Incoming): Outcome {
    Decide(s.hasOnError,
      RequestErrors(s.doc, s.allowNull, s.strict, params, Request(req.query, req.params, BodyParameters(req.body))))
  }

  /** The `all()` middleware: route the URL, resolve the operation for the
      request's verb, then go on as `Routed` says. */
  function AllOutcome(s: Settings, routes: seq<Route>, req: Incoming): Outcome
    requires forall i :: 0 <= i < |routes| ==> ValidRoute(routes[i])
  {
    match FirstRoute(s.basePath, routes, req.url)
    case None => PassThrough
    case Some(route) =>
      match ResolveOperation(s.paths, req.verb, route.swaggerPath)
      case Err(e) => Thrown(NoEntryThrown(e))
      case Ok(params) => Routed(s, route, params, req)
  }

  /** The rest of `all()` once the route and its parameters are known: read
      the path parameters from the URL itself, collect the errors, decide.
      From here on the request is never let through unchecked, and the
      only exception is a TypeError. */
  function Routed(s: Settings, route: Route, params: seq<Parameter>, req: Incoming): (o: Outcome)
    requires ValidRoute(route)
    ensures o != PassThrough
    ensures o.Thrown? ==> o.failure == TypeErrorThrown
  {
    match PathParameters(route, req.url)
    case Err(_) => Thrown(TypeErrorThrown)
    case Ok(pp) =>
      Decide(s.hasOnError,
        RequestErrors(s.doc, s.allowNull, s.strict, params, Request(req.query, pp, BodyParameters(req.body))))
  }

  /** `all()` lets a request through untouched exactly when no declared
      path matches its URL, and only then. */
  lemma AllPassThroughIff(s: Settings, routes: seq<Route>, req: Incoming)
    requires forall i :: 0 <= i < |routes| ==> ValidRoute(routes[i])
    ensures AllOutcome(s, routes, req) == PassThrough <==>
      forall i :: 0 <= i < |routes| ==> !UrlMatches(s.basePath, routes[i], req.url)
  {
    FirstRouteMeaning(s.basePath, routes, req.url);
  }

  /** A URL written from a declared template (base path, then the template
      with word values in its holes) is always validated by `all()`: it is
      never let through unchecked. */
  lemma InstanceNeverPassesThrough(s: Settings, routes: seq<Route>, i: nat, vals: seq<string>, req: Incoming)
    requires forall k :: 0 <= k < |routes| ==> ValidRoute(routes[k])
    requires i < |routes| && |vals| == |Variables(routes[i].pattern)| && HoleValues(vals)
    requires req.url == s.basePath + Fill(routes[i].pattern, vals)
    ensures AllOutcome(s, routes, req) != PassThrough
  {
    InstanceRoutes(s.basePath, routes[i], vals);
    AllPassThroughIff(s, routes, req);
  }

  /** When `all()` rejects, it is with status 400 and a nonempty list of
      errors, given to `onError` exactly when one was configured. */
  lemma AllRejects(s: Settings, routes: seq<Route>, req: Incoming)
    requires forall i :: 0 <= i < |routes| ==> ValidRoute(routes[i])
    requires AllOutcome(s, routes, req).Reject?
    ensures AllOutcome(s, routes, req).status == 400
    ensures AllOutcome(s, routes, req).errors != []
    ensures AllOutcome(s, routes, req).viaHandler == s.hasOnError
  {
    var route := FirstRoute(s.basePath, routes, req.url).value;
    var params := ResolveOperation(s.paths, req.verb, route.swaggerPath).value;
    var pp := PathParameters(route, req.url).value;
    DecideMeaning(s.hasOnError,
      RequestErrors(s.doc, s.allowNull, s.strict, params, Request(req.query, pp, BodyParameters(req.body))));
  }

  /** A request `all()` accepts went to a declared operation and supplied
      every required query, path, form and body parameter of it. */
  lemma AllAcceptedSupplied(s: Settings, routes: seq<Route>, req: Incoming)
    requires forall i :: 0 <= i < |routes| ==> ValidRoute(routes[i])
    requires AllOutcome(s, routes, req) == Accept
    ensures FirstRoute(s.basePath, routes, req.url).Some?
    ensures ResolveOperation(s.paths, req.verb, FirstRoute(s.basePath, routes, req.url).value.swaggerPath).Ok?
    ensures PathParameters(FirstRoute(s.basePath, routes, req.url).value, req.url).Ok?
    ensures forall p :: (p in ResolveOperation(s.paths, req.verb, FirstRoute(s.basePath, routes, req.url).value.swaggerPath).value &&
      Checked(p) && p.required) ==>
        !Missing(p, Request(req.query, PathParameters(FirstRoute(s.basePath, routes, req.url).value, req.url).value, BodyParameters(req.body)))
  {
    FirstRouteMeaning(s.basePath, routes, req.url);
    var route := FirstRoute(s.basePath, routes, req.url).value;
    var params := ResolveOperation(s.paths, req.verb, route.swaggerPath).value;
    var pp := PathParameters(route, req.url).value;
    var r := Request(req.query, pp, BodyParameters(req.body));
    DecideMeaning(s.hasOnError, RequestErrors(s.doc, s.allowNull, s.strict, params, r));
    NoErrorsAllSupplied(s.doc, s.allowNull, s.strict, params, r);
  }

  /** Once a path matches, an undeclared verb is an exception, not a pass:
      `all()` throws the missing-entry error exactly when the operation
      lookup for the matched path fails, and the error names that path
      and the lower-cased verb. */
  lemma AllThrowsNoEntry(s: Settings, routes: seq<Route>, req: Incoming)
    requires forall i :: 0 <= i < |routes| ==> ValidRoute(routes[i])
    ensures (AllOutcome(s, routes, req).Thrown? && AllOutcome(s, routes, req).failure.NoEntryThrown?) <==>
      FirstRoute(s.basePath, routes, req.url).Some? &&
      ResolveOperation(s.paths, req.verb, FirstRoute(s.basePath, routes, req.url).value.swaggerPath).Err?
    ensures (AllOutcome(s, routes, req).Thrown? && AllOutcome(s, routes, req).failure.NoEntryThrown?) ==>
      AllOutcome(s, routes, req).failure.entry ==
        NoEntry(NormaliseRoute(FirstRoute(s.basePath, routes, req.url).value.swaggerPath), Text.LowerCase(req.verb))
  {
    if FirstRoute(s.basePath, routes, req.url).Some? {
      var route := FirstRoute(s.basePath, routes, req.url).value;
      ResolveOperationMeaning(s.paths, req.verb, route.swaggerPath);
    }
  }

  /** The validator built by the constructor. The settings are fixed; the
      routes and model names are pushed one by one while it is built. */
  class Validator {
    const settings: Settings
    var routes: seq<Route>
    var models: seq<string>

    /** What the constructor leaves: one route per path and the names of
        the definitions, both in key order. */
    ghost predicate Valid()
      reads this
    {
      routes == RoutesOf(settings.paths) &&
      settings.doc.definitions.Some? && models == KeysOf(settings.doc.definitions.value)
    }

    /** The loops of the constructor, run once the arguments are known to
        be good. */
    constructor (s: Settings)
      requires s.doc.definitions.Some?
      ensures settings == s
      ensures routes == RoutesOf(s.paths)
      ensures models == KeysOf(s.doc.definitions.value)
      ensures Valid()
    {
      settings := s;
      new;
      routes := [];
      for i := 0 to |s.paths|
        invariant |routes| == i
        invariant forall k :: 0 <= k < i ==> routes[k] == CompileRoute(s.paths[k].0)
      {
        routes := routes + [CompileRoute(s.paths[i].0)];
      }
      assert routes == RoutesOf(s.paths);
      models := [];
      var defs := s.doc.definitions.value;
      for i := 0 to |defs|
        invariant routes == RoutesOf(s.paths)
        invariant |models| == i
        invariant forall k :: 0 <= k < i ==> models[k] == defs[k].0
      {
        models := models + [defs[i].0];
      }
    }

    /** `new SwaggerInputValidator(swagger, options)`: the argument checks,
        then the construction; an error is the one the constructor throws. */
    static method Create(swagger: SwaggerArg, options: OptionsArg) returns (r: Result<Validator, ConfigError>)
      ensures r.Err? <==> Configure(swagger, options).Err?
      ensures r.Err? ==> r.error == Configure(swagger, options).error
      ensures r.Ok? ==> fresh(r.value) && r.value.Valid() && r.value.settings == Configure(swagger, options).value
    {
      match Configure(swagger, options)
      case Err(e) =>
        return Err(e);
      case Ok(s) =>
        ConfigureAcceptsOnlyValid(swagger, options);
        ConfigureSettings(swagger, options);
        var v := new Validator(s);
        return Ok(v);
    }

    /** `getParsingParameters`: the loop with its early return. */
    method GetParsingParameters(url: string) returns (r: Option<Route>)
      ensures r == FirstRoute(settings.basePath, routes, url)
    {
      var i := 0;
      while i < |routes|
        invariant i <= |routes|
        invariant FirstRoute(settings.basePath, routes, url) == FirstRoute(settings.basePath, routes[i..], url)
      {
        if UrlMatches(settings.basePath, routes[i], url) {
          return Some(routes[i]);
        }
        assert routes[i..][1..] == routes[i + 1..];
        i := i + 1;
      }
      return None;
    }

    /** `getErrors`: the loop over the declared parameters, then in strict
        mode the loops over the query, path and body keys. */
    method GetErrors(params: seq<Parameter>, req: Request) returns (r: Result<seq<ValidationError>, ()>)
      ensures r == RequestErrors(settings.doc, settings.allowNull, settings.strict, params, req)
    {
      var declared := CheckDeclared(params, req);
      if declared.Err? || !settings.strict {
        return declared;
      }
      var queryErrors := ListUndeclared(params, "query", KeysOf(req.query));
      var pathErrors := ListUndeclared(params, "path", KeysOf(req.path));
      var bodyErrors := CheckBodyKeys(params, req.body);
      if bodyErrors.Err? {
        return Err(());
      }
      return Ok(declared.value + queryErrors + pathErrors + bodyErrors.value);
    }

    /** The `for ... of` loop of `getErrors` over the declared parameters,
        stopped by the first check that throws. */
    method CheckDeclared(params: seq<Parameter>, req: Request) returns (r: Result<seq<ValidationError>, ()>)
      ensures r == DeclaredErrors(settings.doc, settings.allowNull, params, req)
    {
      var errs: seq<ValidationError> := [];
      for i := 0 to |params|
        invariant DeclaredErrors(settings.doc, settings.allowNull, params[..i], req) == Ok(errs)
      {
        assert params[..i + 1][..i] == params[..i];
        var found := ParamErrors(settings.doc, settings.allowNull, params[i], req);
        if found.Err? {
          DeclaredThrowsAt(settings.doc, settings.allowNull, params, req, i);
          return Err(());
        }
        errs := errs + found.value;
      }
      assert params[..|params|] == params;
      return Ok(errs);
    }

    /** The body part of the strict check: one search for extra values when
        the body is the single parameter, otherwise the loop over the body
        keys against the form parameters. */
    method CheckBodyKeys(params: seq<Parameter>, body: JsValue) returns (r: Result<seq<ValidationError>, ()>)
      ensures r == BodyExcess(settings.doc, params, body)
    {
      if |params| == 1 && params[0].location == "body" {
        var target := if params[0].name == "" then body else Get(body, params[0].name);
        var extra := HasExtra(settings.doc, target, params[0].schema);
        if extra.Err? {
          return Err(());
        }
        return Ok(if extra.value then [ExtraValues(params[0].name)] else []);
      }
      var entries := Entries(body);
      if entries.None? {
        return Err(());
      }
      var errs := ListUndeclared(params, "formData", KeysOf(entries.value));
      return Ok(errs);
    }

    /** The `all()` middleware applied to one request. */
    method HandleAll(req: Incoming) returns (o: Outcome)
      requires Valid()
      ensures o == AllOutcome(settings, routes, req)
    {
      RoutesOfValid(settings.paths);
      var route := GetParsingParameters(req.url);
      if route.None? {
        return PassThrough;
      }
      FirstRouteMeaning(settings.basePath, routes, req.url);
      var params := ResolveOperation(settings.paths, req.verb, route.value.swaggerPath);
      if params.Err? {
        return Thrown(NoEntryThrown(params.error));
      }
      var pathParams := GetPathParametersFromUrl(req.url, route.value);
      if pathParams.Err? {
        return Thrown(TypeErrorThrown);
      }
      var errors := GetErrors(params.value, Request(req.query, pathParams.value, BodyParameters(req.body)));
      return Decide(settings.hasOnError, errors);
    }

    /** `get(url)`, `post(url)`, `put(url)`, `delete(url)`, `patch(url)`
        and `head(url)`: the operation is resolved when the middleware is
        registered, so a missing entry throws at registration. */
    method Register(verb: string, url: string) returns (r: Result<seq<Parameter>, NoEntry>)
      ensures r == ResolveOperation(settings.paths, verb, url)
    {
      r := ResolveOperation(settings.paths, verb, url);
    }

    /** The middleware a registration returns, applied to one request. */
    method HandleDeclared(params: seq<Parameter>, req: Incoming) returns (o: Outcome)
      ensures o == DeclaredOutcome(settings, params, req)
    {
      var errors := GetErrors(params, Request(req.query, req.params, BodyParameters(req.body)));
      return Decide(settings.hasOnError, errors);
    }
  }

  /** One `Object.keys(...).forEach` of the strict check: "should not be
      specified" for each key, in order, that no parameter of this location
      declares. */
  method ListUndeclared(params: seq<Parameter>, location: string, keys: seq<string>) returns (errs: seq<ValidationError>)
    ensures errs == Unlisted(params, location, keys)
  {
    errs := [];
    for i := 0 to |keys|
      invariant errs == Unlisted(params, location, keys[..i])
    {
      assert keys[..i + 1][..i] == keys[..i];
      var present := IsPresentWithinTheSwagger(params, location, keys[i]);
      if !present {
        errs := errs + [ShouldNotBeSpecified(keys[i])];
      }
    }
    assert keys[..|keys|] == keys;
  }

  /** A declared parameter whose check throws makes the whole loop throw. */
  lemma DeclaredThrowsAt(doc: SwaggerDoc, allowNull: bool, params: seq<Parameter>, req: Request, j: nat)
    requires j < |params| && ParamErrors(doc, allowNull, params[j], req).Err?
    ensures DeclaredErrors(doc, allowNull, params, req) == Err(())
  {
    DeclaredThrowsIff(doc, allowNull, params, req);
    assert ThrowsAt(doc, allowNull, params, req, j);
    match DeclaredErrors(doc, allowNull, params, req)
    case Err(u) =>
      match u
      case () =>
  }
}
